=== FILE: README.md ===
# OS/161 virtual memory and descriptor tables, modelled in Dafny

This project models the memory-management core and the two bookkeeping
tables of an OS/161 kernel (MIPS, 32-bit):

- the **coremap** (physical frame table): boot-time initialisation, the
  `nextfree` scan, single-frame allocation and contiguous-run allocation;
- **vm.c**: the page-fault handler (`vm_fault`) with demand allocation,
  fault-kind authorisation and TLB installation, and the kernel page
  allocator entry points `alloc_kpages` / `free_kpages`;
- the **address space**: `as_create`, `as_define_region`,
  `as_prepare_load`, `as_complete_load`, `as_define_stack`;
- **sys_sbrk**: moving the heap break, releasing vacated heap pages and
  flushing the TLB;
- the **file table**: open-file entries with reference counts, and the
  per-process descriptor array (`checkfd`, `get`, `set`, `remove`, `add`,
  `copy`);
- the **process table**: the pid-indexed array of processes (`checkpid`,
  `get`, `set`, `remove`, `add`);
- **sys_lseek** on an open-file entry.

Everything is a pure function over immutable values. Kernel objects that
the C code reaches through pointers (open-file entries, processes) live in
a map from an abstract pointer to the record, and a table slot holds the
pointer (`Option<nat>`, `None` being NULL). A region's page slot and a
frame both refer to a page record `PageRec(paddr, startaddr, freed)`; a
region slot holds the index of the frame whose record it points to.
Allocation failures of `kmalloc` and `array_setsize`, the answers of the
vnode operations, and the addresses the frame allocator returns to
`as_prepare_load` / `as_define_stack` are inputs. The addresses that
`sys_sbrk` hands to the frame release routine are an output.

The model follows the code as written, including its quirks. Each quirk
is stated as a lemma:

- the run allocator can hand out an already allocated frame
  (`Coremap.AllocNPagesCanOverlapAllocated`);
- region ends are computed in a 32-bit word: a region length that wraps
  comes out shorter than requested (`AddrSpace.Align`), and a region ending
  at exactly 4 GB holds no address the fault handler can find
  (`AddrSpace.RegionAtTopHoldsNothing`);
- the run allocator never returns 0, so the ENOMEM branches of
  `as_prepare_load` and `as_define_stack` are never taken, and a search
  that finds no run hands out a frame it never allocated
  (`Coremap.AllocNPagesNeverReturnsZero`,
  `Coremap.FailedRunSearchHandsOutFreeFrame`);
- on a table larger than 4096 frames with none free below that index, the
  single-frame allocator returns a frame it does not mark, and a page
  fault maps it (`Vm.FaultWithoutFreeFrameMapsUnallocatedFrame`);
- closing a descriptor below the top leaves a dangling slot and makes a
  later `filetable_copy` panic (`FileTable.RemoveBelowTopThenCopyPanics`);
- `filetable_set` on a used slot over-counts (`FileTable.SetUsedOvercounts`);
- `proctable_remove` never clears the slot, so removing the same pid again
  destroys the already destroyed process a second time and counts it out
  twice (`ProcTable.RemoveLeavesDanglingSlot`,
  `ProcTable.RemoveTwiceDoubleCounts`);
- `as_create` sets the heap bound to 0 and no modelled code raises it, so
  every `sys_sbrk` on such an address space fails
  (`Sbrk.SbrkFailsWithoutHeapBound`);
- `proctable_add` can give out pid 1 (`ProcTable.AddCanHandOutPidOne`), or
  give out pid 1 without storing the process
  (`ProcTable.AddToEmptyTableLosesProcess`).

Modules: `Types` (constants, `Option`, `Errno`, page record, 32-bit
wrap), `Coremap`, `Tlb`, `AddrSpace`, `Vm`, `Sbrk`, `Slots` (the slot
scans and counts both tables share), `FileTable`, `ProcTable`, `Lseek`.

## Model

| member | source | states |
|---|---|---|
| Types.PageBase | kern/vm/vm.c:32 | `a & PAGE_FRAME` is page-aligned and is the base of the page that holds `a` |
| Types.Wrap32 | kern/syscall/sbrk.c:39 | a 32-bit unsigned sum is below 2^32, equals the exact sum when that fits, and differs from it by a multiple of 2^32 |
| Coremap.Init | kern/vm/coremap.c:13-52 | every frame records address i*PAGE_SIZE; exactly the reserved frames are allocated, pinned and kernel; no frame is the last of a run; the cursor is the reserved count, which is free when it is a frame below the scan limit |
| Coremap.FreeScan | kern/vm/coremap.c:60-65 | the scan loop: returns -1 iff no frame of the table in [c, 4096) is free, otherwise the least free index there |
| Coremap.NextFree | kern/vm/coremap.c:55-66 | needs a positive start, as the source asserts; returns -1 iff no frame of the table in [c, 4096) is free, otherwise the least free index there |
| Coremap.AllocPage | kern/vm/coremap.c:102-113 | takes the least free frame at or after the cursor, marks only it allocated, leaves the cursor, and returns that frame's address; with no free frame below 4096 it marks nothing and returns the address of the frame where its loop stopped |
| Coremap.ScanRun | kern/vm/coremap.c:70-90 | the run search: its start only moves to nextfree(start) and stays free; a completed search ends, inside the table, at the last of n free frames it counted |
| Coremap.MarkRun | kern/vm/coremap.c:84-90 | marks exactly [start, end] allocated and only `end` as the last page, leaving every other field alone |
| Coremap.AllocNPages | kern/vm/coremap.c:70-99 | on any table whose search stays inside it: the returned frame was free, at or after the cursor, is the cursor or nextfree(cursor), and the cursor moves to nextfree(returned index); frames below the cursor are untouched |
| Coremap.AllocNPagesNeverReturnsZero | kern/vm/coremap.c:70-99 | with frames numbered by address, the address returned is never 0, the value its callers take as failure |
| Coremap.FailedRunSearchHandsOutFreeFrame | kern/vm/coremap.c:76-98 | a search that finds no run marks nothing, yet returns the nonzero address of a frame it leaves unallocated |
| Coremap.AllocNPagesMarksRun | kern/vm/coremap.c:75-98 | without a run nothing is marked; with one, the n frames that end it were free and everything from the returned frame to the run's end is marked allocated, the end being the last page |
| Coremap.ScanRunOverFreeFrames | kern/vm/coremap.c:75-90 | over free frames the search stops exactly n - found frames later, with its start unchanged |
| Coremap.ScanRunFindsFirstRunFrom | kern/vm/coremap.c:75-90 | a search in progress (found < n free frames counted since lo) completes, at or before e, whenever a run of n free frames from lo on ends at some e below 4096 inside the table |
| Coremap.RunSearchFindsFirstRun | kern/vm/coremap.c:70-90 | for n >= 1, the search from the cursor ends at -1 iff no run of n free frames at or after the cursor ends below 4096 inside the table; otherwise it ends at the least such end |
| Coremap.AllocNPagesTakesFirstRun | kern/vm/coremap.c:70-99 | for n >= 1, no such run means nothing is marked; otherwise the first run's frames are all allocated and its last frame carries the last-page mark |
| Coremap.BootRunIsExact | kern/vm/coremap.c:13-99 | right after init, on any table with room for the run (and a free frame after it when the table is shorter than 4096 frames), an n-frame run is exactly [reserved, reserved+n) and the cursor moves just past it |
| Coremap.BootPageIsFirstUnreserved | kern/vm/coremap.c:13-113 | right after init, a single-frame allocation takes the first unreserved frame |
| Coremap.AllocNPagesCanOverlapAllocated | kern/vm/coremap.c:78-95 | on an eight-frame table whose cursor frame is followed by an allocated one, a two-frame request returns the cursor frame, marks a run through the allocated frame, and moves the cursor to the next free frame after the run |
| Tlb.InvalidEntry | kern/vm/vm.c:135-137 | an invalidated slot holds no valid entry |
| Tlb.MappingEntry | kern/vm/vm.c:126-127 | the entry maps the faulting page to the frame of paddr, dirty and valid |
| Tlb.FirstInvalid | kern/vm/vm.c:121-125 | the first slot without a valid entry, all earlier ones valid |
| Tlb.FlushAll | kern/vm/vm.c:134-137 | every slot i holds the invalid entry for i |
| Tlb.Install | kern/vm/vm.c:120-139 | writes into the first slot without a valid entry; if every slot is valid, flushes all and writes into slot 0 |
| Tlb.InstallMapsPage | kern/vm/vm.c:120-139 | after an install the page is mapped, validly, to the frame, whatever the TLB held |
| AddrSpace.Create | kern/vm/addrspace.c:47-63 | a failure of the first allocation gives NULL; otherwise no regions, a one-slot region array, heap bound, start and break 0 and no heap pages |
| AddrSpace.Align | kern/vm/addrspace.c:180-186 | for any 32-bit vaddr and memsize the range starts at the page of vaddr; unless the 32-bit length wraps it is the least whole-page range covering [vaddr, vaddr+memsize), and when it wraps it is shorter than memsize |
| AddrSpace.AlignExact | kern/vm/addrspace.c:180-186 | a page-aligned request of whole pages below 4 GB is kept exactly |
| AddrSpace.RegionAtTopHoldsNothing | kern/vm/vm.c:52-54 | a region ending at exactly 4 GB has a wrapped top of 0 and holds no address |
| AddrSpace.DefineRegion | kern/vm/addrspace.c:142-194 | succeeds iff both allocations do, else ENOMEM with the regions unchanged; the array grows to 2n+1; the new region is appended after the old ones, starting at the page of vaddr, covering the request exactly as Align does (shorter than memsize when the length wraps), with no slot array; the heap fields never change |
| AddrSpace.Bind | kern/vm/addrspace.c:220-223 | page j of the region is bound to frame base/PAGE_SIZE + j; range and permission unchanged |
| AddrSpace.FreshSlots | kern/vm/addrspace.c:211 | the region gets a slot array of one slot per page; range and permission unchanged |
| AddrSpace.PrepareFrom | kern/vm/addrspace.c:209-224 | succeeds iff no run address from region i on is 0 (what the kernel takes as a failed allocation), binding each of those regions to its run; failure is ENOMEM; earlier regions untouched |
| AddrSpace.PrepareFromStopsAtFirstFailure | kern/vm/addrspace.c:209-224 | the loop stops at the first failed run: earlier regions bound, that region with empty slots, later regions untouched |
| AddrSpace.PrepareLoad | kern/vm/addrspace.c:197-227 | succeeds iff no run address is 0, every region then bound to its run; otherwise ENOMEM; nothing but the regions changes |
| AddrSpace.PrepareLoadStopsAtFirstFailure | kern/vm/addrspace.c:209-224 | a failed load binds the regions before the first failed run and leaves the rest without frames |
| AddrSpace.CompleteLoad | kern/vm/addrspace.c:230-241 | the break is the end of the last region defined modulo 4 GB; when that end is below 4 GB, just past its last page (at its start when it has none); nothing else changes |
| AddrSpace.DefineThenCompleteLoad | kern/vm/addrspace.c:142-241 | for one segment whose length does not wrap, the break is the first page boundary at or above the segment's end, modulo 4 GB |
| AddrSpace.DefineStack | kern/vm/addrspace.c:244-286 | succeeds iff both allocations do and the run address is not 0, else ENOMEM; the stack region is [USERSTACK - STACKPAGES pages, USERSTACK), bound to the run, and the stack pointer is USERSTACK; a zero run address leaves the region with empty slots; a failed allocation of the array or record adds no region (and a failed array allocation changes nothing); the array grows to 2n+1 whenever its allocation succeeds; the region carries the permission given; the heap fields and the earlier regions never change |
| Vm.FindRegion | kern/vm/vm.c:45-55 | the first region containing the address below its 32-bit wrapped top, or -1 iff none does |
| Vm.PageIndex | kern/vm/vm.c:57 | the page of the region that holds the address |
| Vm.Authorize | kern/vm/vm.c:91-112 | read and write faults pass; a read-only fault passes iff the write bit is set, else EFAULT; an unknown kind is EINVAL |
| Vm.Resolve | kern/vm/vm.c:58-63 | an empty slot is bound to the least free frame at or after the cursor, which becomes allocated, or, with none free below 4096, to the frame where the scan stopped, left unallocated; an occupied slot is kept and nothing changes |
| Vm.BindPage | kern/vm/vm.c:57-81 | the page's slot is bound (to the first free frame, or the scan's stopping frame when none is free), that frame is referenced and read back as frame * PAGE_SIZE; nothing of the address space but region k's slot changes, and no other frame changes |
| Vm.RegionFault | kern/vm/vm.c:57-139 | the slot is bound (to the first free frame, or the scan's stopping frame when none is free) and its frame referenced even if the fault is refused; frame address 0 is EFAULT, otherwise the kind decides; on success the TLB gets the mapping, otherwise it is unchanged; nothing of the address space but region k's slot changes |
| Vm.VmFault | kern/vm/vm.c:19-143 | no process, no address space or no region: EFAULT with nothing changed; otherwise the first region containing the page handles it |
| Vm.DemandFaultSucceeds | kern/vm/vm.c:19-143 | with a free frame at or after the cursor, a read/write fault on an empty page succeeds, allocates exactly the next free frame and leaves the page mapped to it in the TLB |
| Vm.FaultWithoutFreeFrameMapsUnallocatedFrame | kern/vm/vm.c:19-143 | with no free frame below 4096 on a larger table, a read/write fault on an empty page succeeds and maps the page to a frame that stays unallocated |
| Vm.PaddrToKvaddr | kern/vm/vm.c:164 | a physical address below KSEG0 maps to itself plus KSEG0 |
| Vm.FreeKPages | kern/vm/vm.c:168-175 | the address released is the inverse of the direct map for every physical address below KSEG0 |
| Vm.AllocKPages | kern/vm/vm.c:146-165 | more than one page uses the run allocator, otherwise the single-frame one; physical 0 gives 0; any other address round-trips through free_kpages |
| Vm.AllocKPagesTakesFreeFrame | kern/vm/vm.c:146-165 | with a free frame at or after the cursor, the address handed out is page-aligned, below KSEG0, of a frame that was free; a single page is marked allocated |
| Sbrk.ReleaseFrom | kern/syscall/sbrk.c:54-70 | exactly the live heap pages starting in the vacated range are marked freed, and exactly their addresses are released, one per vacated slot |
| Sbrk.SysSbrk | kern/syscall/sbrk.c:14-88 | EINVAL for a partial page, ENOMEM without a heap, then the bounds errors; success iff the new break is in [heap start, heap max); errors change nothing; a shrink frees the vacated pages and flushes the TLB; a grow changes only the break |
| Sbrk.GrowReleasesNothing | kern/syscall/sbrk.c:50-82 | growing the break without wrap-around releases nothing and leaves the TLB and heap pages alone |
| Sbrk.SbrkFailsWithoutHeapBound | kern/syscall/sbrk.c:14-48 | with a heap bound of 0, as as_create leaves it, every call fails and changes nothing |
| Sbrk.SbrkKeepsHeapBelowBreak | kern/syscall/sbrk.c:50-86 | every live heap page stays below the break across a successful call |
| Sbrk.GrowThenShrinkRestores | kern/syscall/sbrk.c:14-88 | growing by k whole pages and shrinking by k restores the address space and releases nothing |
| Slots.Count | kern/lib/filetable.c:269-304 | the number of used slots, zero iff all are NULL |
| Slots.Occ | kern/lib/filetable.c:294-297 | the number of slots holding one pointer, zero iff none does |
| Slots.HighestBelow | kern/lib/filetable.c:205-213 | the highest used slot below k, or -1, with only NULL slots between |
| Slots.FirstHole | kern/lib/filetable.c:241-247 | the first NULL slot in [i, hi), or hi, with only used slots before it |
| Slots.CountConcat | kern/lib/filetable.c:269-304 | the count of a concatenation is the sum of the counts |
| Slots.CountUpdate | kern/lib/filetable.c:157-181 | overwriting one slot changes the count by the difference of the two slots |
| Slots.CountNullTail | kern/lib/filetable.c:205-213 | dropping NULL slots at the end keeps the count |
| Slots.OccConcat | kern/lib/filetable.c:294-297 | per-pointer counts add over concatenation |
| FileTable.AccessMode | kern/lib/filetable.c:17-47 | the access mode is in [0, 3] and agrees with the flags modulo 4 |
| FileTable.EntryCreate | kern/lib/filetable.c:17-47 | an allocation failure gives NULL; otherwise a new entry with the name, vnode, flags, offset 0, one reference and the flags' access mode, other entries unchanged |
| FileTable.EntryDestroy | kern/lib/filetable.c:50-66 | the last reference frees the entry; any other drop decrements its count; other entries unchanged |
| FileTable.Share | kern/lib/filetable.c:294-297 | one more reference on the entry, nothing else changes |
| FileTable.CreateThenDestroyRestores | kern/lib/filetable.c:17-66 | creating an entry and destroying it restores the store |
| FileTable.ShareThenDestroyRestores | kern/lib/filetable.c:50-66 | taking a reference and dropping it restores the store |
| FileTable.DestroyKeepsRefcountsPositive | kern/lib/filetable.c:50-66 | dropping a reference keeps every surviving entry referenced |
| FileTable.CheckFd | kern/lib/filetable.c:80-88 | a descriptor is valid iff it indexes the array |
| FileTable.Get | kern/lib/filetable.c:141-150 | the slot of a valid descriptor, NULL otherwise |
| FileTable.Set | kern/lib/filetable.c:157-181 | EBADF out of [0, MAXFDS), ENOMEM if growth fails, else the slot holds the pointer, other slots are kept, new slots are NULL and openfds goes up by one |
| FileTable.GetAfterSet | kern/lib/filetable.c:141-181 | after a successful set, get returns the pointer and every other valid descriptor is unchanged |
| FileTable.SetEmptyKeepsConsistent | kern/lib/filetable.c:157-181 | setting an empty descriptor keeps the top slot used and openfds counting the used slots |
| FileTable.SetUsedOvercounts | kern/lib/filetable.c:157-181 | setting a used descriptor leaves openfds one above the used-slot count |
| FileTable.Remove | kern/lib/filetable.c:184-221 | EBADF iff the descriptor is out of range; a used slot drops its entry's reference and openfds; at the top the array shrinks to the highest used slot below it, below the top the slot is kept |
| FileTable.RemoveTopKeepsConsistent | kern/lib/filetable.c:184-221 | removing the top descriptor keeps the bookkeeping consistent and the descriptor is gone |
| FileTable.RemoveBelowTopLeavesSlot | kern/lib/filetable.c:184-221 | removing below the top leaves get returning the dropped pointer and openfds one below the count |
| FileTable.Add | kern/lib/filetable.c:229-266 | the pointer goes into the first NULL slot below the top whenever there is one, else into a new slot after it; EMFILE iff the table is full at MAXFDS; without a hole a failed growth is an error; failures change nothing |
| FileTable.AddTakesLowestFree | kern/lib/filetable.c:229-266 | in a consistent table the descriptor handed out is the lowest free one |
| FileTable.AddKeepsConsistent | kern/lib/filetable.c:229-266 | a successful add keeps the bookkeeping consistent |
| FileTable.AddThenRemoveRestores | kern/lib/filetable.c:17-266 | opening into a full table and closing the descriptor restores the table and the store |
| FileTable.CopyLoop | kern/lib/filetable.c:290-298 | the copy loop keeps the destination well formed |
| FileTable.CopyLoopMirrors | kern/lib/filetable.c:290-298 | the loop ends with the destination equal to the source up to its highest used slot |
| FileTable.CopyLoopCounts | kern/lib/filetable.c:290-298 | the loop adds one to openfds per used source slot |
| FileTable.CopyLoopAddsReferences | kern/lib/filetable.c:290-298 | the loop gives each entry one reference per source slot that holds it |
| FileTable.CopySetStep | kern/lib/filetable.c:290-298 | one used slot extends the mirrored prefix by one |
| FileTable.ShareStep | kern/lib/filetable.c:294-297 | one used slot moves one reference from the remaining count to the entry |
| FileTable.Copy | kern/lib/filetable.c:269-304 | allocation failure aside, the copy succeeds iff the source is consistent (else the KASSERT panics); the copy equals the source and each entry gains one reference per slot |
| FileTable.RemoveBelowTopThenCopyPanics | kern/lib/filetable.c:184-304 | closing a used descriptor below the top makes a later copy panic |
| ProcTable.CheckPid | kern/lib/proctable.c:28-34 | a pid is valid iff it is in [PID_MIN, PID_MAX) |
| ProcTable.Get | kern/lib/proctable.c:37-47 | the slot of a valid pid, NULL otherwise |
| ProcTable.Set | kern/lib/proctable.c:50-74 | ESRCH for an invalid pid; else the slot holds the process, others are kept, maxpid rises to pid if above, numprocs goes up by one |
| ProcTable.SetEmptyKeepsCounted | kern/lib/proctable.c:50-74 | setting an empty pid keeps numprocs counting the slots and nothing above maxpid |
| ProcTable.Remove | kern/lib/proctable.c:77-113 | ESRCH iff the pid is invalid; a used slot's process is destroyed but the slot is kept; numprocs drops; removing maxpid lowers it to the highest used slot below, and strictly below pid whenever some slot below is used |
| ProcTable.RemoveLeavesDanglingSlot | kern/lib/proctable.c:77-113 | after a removal, get still returns the destroyed process and numprocs is one below the count |
| ProcTable.RemoveTwiceDoubleCounts | kern/lib/proctable.c:77-113 | removing the same pid twice succeeds both times: the second call finds the slot still holding the process the first call destroyed, destroys it again, and counts it out a second time |
| ProcTable.Add | kern/lib/proctable.c:117-156 | the process goes into the first NULL slot in [1, maxpid), else after maxpid; ENPROC iff maxpid is the last pid and no hole; the chosen pid is written into the process; with maxpid below 1 it gets pid 1 and no slot |
| ProcTable.AddKeepsCounted | kern/lib/proctable.c:117-156 | a successful add fills an empty slot and keeps numprocs counting the slots and nothing above maxpid |
| ProcTable.AddCanHandOutPidOne | kern/lib/proctable.c:117-156 | with slot 1 free, add gives out pid 1, which get then refuses |
| ProcTable.AddToEmptyTableLosesProcess | kern/lib/proctable.c:117-156 | with maxpid below 1, the added process gets pid 1 but no slot holds it |
| ProcTable.AddThenGetThenRemove | kern/lib/proctable.c:37-156 | a process added at a valid pid is found by get, and removing it destroys it and restores numprocs |
| Lseek.SysLseek | kern/syscall/lseek.c:18-77 | errors in the source's order (EBADF, EINVAL, EBADF, ESPIPE, EINVAL, EBADF for a failed stat) change nothing; success iff none applies; the new offset is pos plus 0, the current offset or the size, stored in the entry only |
| Lseek.Moved | kern/syscall/lseek.c:73-76 | the entry's offset becomes the value returned |
| Lseek.SeekSetThenTell | kern/syscall/lseek.c:53-76 | seeking to pos and then by 0 from the current offset returns pos and changes nothing |
| Lseek.SeekCurComposes | kern/syscall/lseek.c:57-59 | two relative seeks equal one by the sum |
| Lseek.OffsetStaysNonNegative | kern/syscall/lseek.c:34-67 | with a non-negative offset and size a successful seek never yields a negative offset |
| Lseek.SharedEntrySeesSeek | kern/syscall/lseek.c:73 | every descriptor sharing the entry sees the new offset |

## Left out

- Locks, spinlocks and interrupt levels (`splhigh`, `coremap_lock`, the entry and table locks): the model is sequential.
- `coremap_free_kpages` and `coremap_used_bytes` are not part of this model; `free_kpages` and `sys_sbrk` return the physical addresses they would pass to it.
- `vm_bootstrap` and `vm_tlbshootdown` do nothing in the source; `as_copy`, `as_destroy`, `as_activate`, `as_deactivate` are outside the modelled core.
- `filetable_create`, `filetable_destroy`, `getconsolevnode`, `proctable_destroy` and the proc lock helpers are outside the modelled core.
- The zero-fill (`bzero`) of a demand-allocated frame, `kprintf` and `DEBUG` output have no effect on the modelled state.
- The NULL-region check in the `vm_fault` loop: the model's region array holds exactly the defined regions, so no slot is NULL.
- `ram_stealmem`, the RAM size and how many frames boot reserves are inputs of `Coremap.Init`.
- Coremap.FreeScan, Coremap.NextFree: require the scan to stay inside the table (a free frame before its end, or a table of at least 4096 frames), because the source reads past the end otherwise.
- Coremap.AllocPage: requires a cursor of at least 0 and, when no frame at or after it below 4096 is free, a table that still holds the frame where the loop stops, because the source reads that frame's address.
- Coremap.ScanRun: on a table shorter than 4096 frames the model stops the search at the table's end, where the source reads on past it; only searches that find their run first are used.
- Coremap.AllocNPages: requires a positive cursor with a free frame at or after it below 4096, because the source asserts the first and indexes the table with -1 without the second; on a table shorter than 4096 frames it also requires the run to be found before the end and a free frame after the run, because the search and the cursor update read past the table otherwise. A cursor at or past 4096, which boot sets only when it reserves more than 16 MB, is excluded as well; the source would return that frame's address unmarked.
- AddrSpace.PrepareLoad: the run addresses are inputs; threading them through the coremap is left to `Coremap.AllocNPages`.
- AddrSpace.DefineStack: the run address is an input, as for `as_prepare_load`.
- AddrSpace.DefineRegion: the sentinel scan is taken to stop at slot |regions|. The source never writes that slot of a grown array, so from the second definition on the scan reads uninitialised memory past the end of the one-slot array; that undefined read is not modelled.
- AddrSpace.CompleteLoad: the assertion that slot |regions| of the region array is NULL reads the same never-written slot and is not modelled.
- AddrSpace.FreshSlots: the slot arrays of `as_prepare_load` and `as_define_stack` come from `kmalloc` and are never cleared; the model takes every slot to be NULL. The allocation itself (addrspace.c:211, 264) is not checked by the source, whose failure would write through NULL; the model takes it to succeed.
- AddrSpace.DefineRegion: the source ignores the readable/writeable/executable arguments and never sets the permission word; `perm` stands for whatever it holds.
- AddrSpace.Create: the source leaves the heap start and break uninitialised; the model starts them at 0.
- AddrSpace.Create: the second allocation (the region array) is not checked by the source, and its failure would write through NULL; the model takes it to succeed.
- Vm.VmFault: requires the region's slot array to exist (the source dereferences it) and, when the slot is empty, what Coremap.AllocPage requires.
- Vm.FreeKPages: returns the physical address only; the release it triggers is not modelled.
- FileTable.Set: array growth is a boolean input whose failure is reported as ENOMEM (the error array_setsize returns on allocation failure); new slots from `array_setsize` are taken to be NULL (the array code is not part of this model).
- FileTable.Remove: a shrink failure of `array_setsize` (ENOSPC) is not modelled; shrinking always succeeds.
- FileTable.Copy: growth inside the copy loop is taken to succeed.
- FileTable.Share, FileTable.Copy: a used slot whose entry was already destroyed (possible in a consistent table after a remove below the top and a set over another used slot) has its freed reference count incremented by the source (filetable.c:294-297); the model leaves the store unchanged there.
- Coremap.RunSearchFindsFirstRun: says nothing for n = 0, where the search stops at the first allocated frame instead; the kernel asks for a run only when more than one page is wanted.
- FileTable.Remove, Lseek.SysLseek: require a used slot to point to a live entry; the source would use a freed pointer otherwise.
- FileTable.Add, Lseek.SysLseek and Sbrk.SysSbrk return the result and the error code through one `int` / `off_t` in the source; the model tells them apart. sys_sbrk stores the old break, a `vaddr_t`, through an `int` pointer (sbrk.c:85), so a break at or above 2^31 comes out negative there; the model returns it unsigned.
- Sbrk.ReleaseFrom: heap slots are taken not to alias. The source tests and sets the freed flag through the slot pointers (sbrk.c:55-59), so two slots sharing one page record would release it once, where the model releases it twice; no modelled code fills the heap array.
- Lseek.SysLseek: 64-bit `off_t` overflow of the new offset is not modelled.
- ProcTable.Add: the process pointer must be live (the source writes its pid field).
- ProcTable.Remove: `proc_destroy` is modelled only as the process leaving the store; what it tears down is outside the modelled core.
- ProcTable.Remove: a second remove of the same pid runs `proc_destroy` again on the process the first call destroyed, a double free; the model can only drop a key already gone from the store, so the double free shows only as the slot still holding the destroyed process.
- Coremap.Init: the flags the source never sets on unreserved frames are taken to be clear, and each frame's page record starts with virtual address 0 and not freed.
- Constants not defined in the modelled files take OS/161's usual values: MAXFDS = 128 (OPEN_MAX), PID_MIN = 2, PID_MAX = 32767, NUM_TLB = 64, STACKPAGES = 16, USERSTACK = MIPS_KSEG0. The heap array length (HEAPPAGES) is whatever the address space holds.

=== FILE: addrspace.dfy ===
/**
 The per-process address space: a growable array of regions, each a
 page-aligned virtual range with a permission word and an array of page
 slots, plus the heap bookkeeping (start, break, upper bound) and the array
 of heap page records that sys_sbrk releases.

 The region array is modelled with an explicit length (`|regions|`) and the
 number of slots allocated for it (`capacity`). The kernel finds the first
 free slot by scanning for a NULL entry, and the model takes that scan to
 stop at index |regions|. The kernel does not guarantee it: the slot at
 |regions| of a grown array is never written, so from the second
 definition on the scan reads a slot that was never initialised (one past
 the end of the one-slot array the first definition leaves). The model
 does not follow the kernel into that undefined read.
 */
module AddrSpace {
  import opened Types

  /**
   Pages in the user stack region. STACKPAGES is defined in a header that
   is not part of this model; the proofs hold for any positive value with
   STACKPAGES * PAGE_SIZE <= USERSTACK.
   */
  const STACKPAGES: nat := 16

  /** A region page slot: empty (NULL), or bound to the page record of frame `value`. */
  type Slot = Option<nat>

  /** `pages` is None while the region's slot array has not been allocated (NULL). */
  datatype Region = Region(start: nat, npages: nat, perm: nat, pages: Option<seq<Slot>>)

  datatype AddrSpace = AddrSpace(
    regions: seq<Region>,
    capacity: nat,
    heapStart: nat,
    heapBrk: nat,
    heapMax: nat,
    heap: seq<Option<PageRec>>)

  /** The state after an operation and the value it returns. */
  datatype Step = Step(space: AddrSpace, status: Status)

  /** The state after as_define_stack, its return value, and the stack pointer it stored (if any). */
  datatype StackStep = StackStep(space: AddrSpace, status: Status, stackptr: Option<nat>)

  /** A page-aligned range: its first address and its number of pages. */
  datatype Span = Span(start: nat, npages: nat)

  /** One past the last address of a region. */
  function RegionEnd(r: Region): nat {
    r.start + PAGE_SIZE * r.npages
  }

  /**
   The region holds virtual address a. The fault handler computes the
   region's top in a 32-bit word, so a region reaching 4 GB or beyond holds
   only the addresses below its wrapped top (none, when it ends at exactly 4 GB).
   */
  predicate Contains(r: Region, a: nat) {
    r.start <= a < Wrap32(RegionEnd(r))
  }

  /** A region ending at exactly 4 GB has a wrapped top of 0 and so holds no address at all. */
  lemma RegionAtTopHoldsNothing(r: Region, a: nat)
    requires RegionEnd(r) == ADDR_LIMIT
    ensures !Contains(r, a)
  {
  }

  /** The region's slot array exists and has one slot per page. */
  predicate Ready(r: Region) {
    r.pages.Some? && |r.pages.value| == r.npages
  }

  /** Page j of region r is bound to frame base / PAGE_SIZE + j, for every j. */
  predicate BoundTo(r: Region, base: nat) {
    && Ready(r)
    && forall j :: 0 <= j < r.npages ==> r.pages.value[j] == Some(base / PAGE_SIZE + j)
  }

  /** Same range and permission; only the slot array may differ. */
  predicate SameShape(r: Region, r': Region) {
    r.start == r'.start && r.npages == r'.npages && r.perm == r'.perm
  }

  /** The requested range, rounded out to whole pages, stays inside the 32-bit address space. */
  predicate FitsWord(vaddr: nat, memsize: nat) {
    vaddr + memsize + PAGE_SIZE <= ADDR_LIMIT
  }

  /**
   The length of as_define_region, grown by the offset and rounded up,
   overflows its 32-bit word.
   */
  predicate SizeWraps(vaddr: nat, memsize: nat) {
    memsize + vaddr % PAGE_SIZE + PAGE_SIZE - 1 >= ADDR_LIMIT
  }

  /**
   as_create: no regions, a one-slot region array, heap bound 0. The source
   leaves the heap start and break unset; the model starts them at 0, the
   value sys_sbrk treats as "no heap yet". A failure of the first allocation
   gives NULL; the second (the region array) is not checked by the kernel,
   and the model takes it to succeed.
   */
  function Create(allocOk: bool): (r: Option<AddrSpace>)
    ensures r.Some? <==> allocOk
    ensures r.Some? ==> |r.value.regions| == 0 && r.value.capacity == 1 && r.value.heapMax == 0
                        && r.value.heapBrk == 0 && r.value.heapStart == 0 && r.value.heap == []
  {
    if allocOk then Some(AddrSpace([], 1, 0, 0, 0, [])) else None
  }

  /**
   The alignment step of as_define_region: the base is rounded down to its
   page, the length grows by the offset dropped and is rounded up to whole
   pages, both sums in a 32-bit word. Unless that length overflows, the
   result is the least page-aligned range covering the request; a length
   that overflows comes out shorter than the request.
   */
  function Align(vaddr: nat, memsize: nat): (s: Span)
    requires vaddr < ADDR_LIMIT && memsize < ADDR_LIMIT
    ensures s.start == PageBase(vaddr)
    ensures s.npages * PAGE_SIZE < ADDR_LIMIT
    ensures !SizeWraps(vaddr, memsize) ==>
              && s.start <= vaddr && vaddr + memsize <= s.start + s.npages * PAGE_SIZE
              && (s.npages > 0 ==> s.start + (s.npages - 1) * PAGE_SIZE < vaddr + memsize)
    ensures SizeWraps(vaddr, memsize) ==> s.npages * PAGE_SIZE < memsize
    ensures FitsWord(vaddr, memsize) ==> s.start + s.npages * PAGE_SIZE < ADDR_LIMIT
  {
    var size0 := Wrap32(memsize + vaddr % PAGE_SIZE);
    var base := vaddr - vaddr % PAGE_SIZE;
    var size := PageBase(Wrap32(size0 + PAGE_SIZE - 1));
    assert size % PAGE_SIZE == 0;
    var n := size / PAGE_SIZE;
    assert n * PAGE_SIZE == size;
    Span(base, n)
  }

  /** Aligned requests are kept exactly as given. */
  lemma AlignExact(vaddr: nat, npages: nat)
    requires vaddr % PAGE_SIZE == 0 && vaddr < ADDR_LIMIT && npages * PAGE_SIZE < ADDR_LIMIT
    ensures Align(vaddr, npages * PAGE_SIZE) == Span(vaddr, npages)
  {
  }

  /**
   as_define_region. The region array is reallocated to 2n+1 slots when the
   sentinel scan lands on slot n, which the model takes it always to do
   (see the module note), with the first n entries kept;
   then a region record is allocated and filled with the aligned range, the
   given permission and no slot array. Either allocation may fail with
   ENOMEM; a failure of the second leaves the grown array in place.
   The kernel ignores the readable/writeable/executable arguments and never
   sets the permission word; `perm` stands for whatever that word holds.
   */
  function DefineRegion(space: AddrSpace, vaddr: nat, memsize: nat, perm: nat, arrayOk: bool, regionOk: bool): (r: Step)
    requires vaddr < ADDR_LIMIT && memsize < ADDR_LIMIT
    ensures r.status == Success <==> arrayOk && regionOk
    ensures r.status != Success ==> r.status == Failure(ENOMEM)
    ensures r.status != Success ==> r.space.regions == space.regions
    ensures arrayOk ==> r.space.capacity == 2 * |space.regions| + 1
    ensures r.status == Success ==>
              && |r.space.regions| == |space.regions| + 1 <= r.space.capacity
              && r.space.regions[..|space.regions|] == space.regions
              && var reg := r.space.regions[|space.regions|];
              && reg.start == PageBase(vaddr)
              && (!SizeWraps(vaddr, memsize) ==>
                    && reg.start <= vaddr && vaddr + memsize <= RegionEnd(reg)
                    && (reg.npages > 0 ==> reg.start + (reg.npages - 1) * PAGE_SIZE < vaddr + memsize))
              && (SizeWraps(vaddr, memsize) ==> RegionEnd(reg) - reg.start < memsize)
              && reg.perm == perm
              && reg.pages == None
    ensures r.space.heapStart == space.heapStart && r.space.heapMax == space.heapMax
    ensures r.space.heapBrk == space.heapBrk && r.space.heap == space.heap
    ensures !arrayOk ==> r.space == space
  {
    if !arrayOk then Step(space, Failure(ENOMEM))
    else
      var grown := space.(capacity := 2 * |space.regions| + 1);
      if !regionOk then Step(grown, Failure(ENOMEM))
      else
        var s := Align(vaddr, memsize);
        Step(grown.(regions := grown.regions + [Region(s.start, s.npages, perm, None)]), Success)
  }

  /** The binding loop: page j of the region gets frame base / PAGE_SIZE + j. */
  function Bind(r: Region, base: nat): (r': Region)
    ensures BoundTo(r', base) && SameShape(r, r')
  {
    r.(pages := Some(seq(r.npages, j requires 0 <= j < r.npages => Some(base / PAGE_SIZE + j))))
  }

  /**
   A freshly allocated slot array that the kernel never fills in. kmalloc
   does not clear what it returns; the model takes every slot to be NULL.
   */
  function FreshSlots(r: Region): (r': Region)
    ensures Ready(r') && SameShape(r, r')
  {
    r.(pages := Some(seq(r.npages, j => None)))
  }

  /**
   The loop of as_prepare_load from region i on. `bases[i]` is the address
   the frame allocator returned for region i's run, and the kernel takes 0
   as a failed allocation. The run allocator as written never returns 0 on
   a table numbered by address (Coremap.AllocNPagesNeverReturnsZero), so
   with it the failure branch is never taken, and a search that found no
   run binds frames that were never allocated
   (Coremap.FailedRunSearchHandsOutFreeFrame).
   */
  function PrepareFrom(regions: seq<Region>, bases: seq<nat>, i: nat): (r: (seq<Region>, Status))
    requires |bases| == |regions| && i <= |regions|
    decreases |regions| - i
    ensures |r.0| == |regions|
    ensures forall j :: 0 <= j < |regions| ==> SameShape(regions[j], r.0[j])
    ensures forall j :: 0 <= j < i ==> r.0[j] == regions[j]
    ensures r.1 == Success <==> forall j :: i <= j < |regions| ==> bases[j] != 0
    ensures r.1 == Success ==> forall j :: i <= j < |regions| ==> BoundTo(r.0[j], bases[j])
    ensures r.1 != Success ==> r.1 == Failure(ENOMEM)
  {
    if i == |regions| then (regions, Success)
    else if bases[i] == 0 then (regions[i := FreshSlots(regions[i])], Failure(ENOMEM))
    else PrepareFrom(regions[i := Bind(regions[i], bases[i])], bases, i + 1)
  }

  /**
   A failed run stops the loop at the first region f whose allocation
   failed: the regions before it are bound, f keeps an empty slot array,
   and the regions after it are untouched.
   */
  lemma {:induction false} PrepareFromStopsAtFirstFailure(regions: seq<Region>, bases: seq<nat>, i: nat, f: nat)
    requires |bases| == |regions| && i <= f < |regions|
    requires bases[f] == 0 && forall j :: i <= j < f ==> bases[j] != 0
    decreases |regions| - i
    ensures var r := PrepareFrom(regions, bases, i);
            && (forall j :: i <= j < f ==> BoundTo(r.0[j], bases[j]))
            && r.0[f] == FreshSlots(regions[f])
            && (forall j :: f < j < |regions| ==> r.0[j] == regions[j])
  {
    if i < f {
      PrepareFromStopsAtFirstFailure(regions[i := Bind(regions[i], bases[i])], bases, i + 1, f);
    }
  }

  /**
   as_prepare_load: every region gets a slot array whose page j is bound to
   the j-th frame of the run allocated for it; the first failed run stops
   the loop with ENOMEM.
   */
  function PrepareLoad(space: AddrSpace, bases: seq<nat>): (r: Step)
    requires |bases| == |space.regions|
    ensures |r.space.regions| == |space.regions|
    ensures r.status == Success <==> forall j :: 0 <= j < |bases| ==> bases[j] != 0
    ensures r.status == Success ==>
              forall j :: 0 <= j < |bases| ==> BoundTo(r.space.regions[j], bases[j])
                                                && SameShape(space.regions[j], r.space.regions[j])
    ensures r.status != Success ==> r.status == Failure(ENOMEM)
    ensures r.space == space.(regions := r.space.regions)
  {
    var res := PrepareFrom(space.regions, bases, 0);
    Step(space.(regions := res.0), res.1)
  }

  /** A failed as_prepare_load binds the regions before the first failed run and leaves the rest without frames. */
  lemma PrepareLoadStopsAtFirstFailure(space: AddrSpace, bases: seq<nat>, f: nat)
    requires |bases| == |space.regions| && f < |bases|
    requires bases[f] == 0 && forall j :: 0 <= j < f ==> bases[j] != 0
    ensures var r := PrepareLoad(space, bases);
            && r.status == Failure(ENOMEM)
            && (forall j :: 0 <= j < f ==> BoundTo(r.space.regions[j], bases[j]))
            && r.space.regions[f] == FreshSlots(space.regions[f])
            && (forall j :: f < j < |bases| ==> r.space.regions[j] == space.regions[j])
  {
    PrepareFromStopsAtFirstFailure(space.regions, bases, 0, f);
  }

  /**
   as_complete_load: the heap break is placed at the end of the last region
   defined, computed in a 32-bit word. The kernel indexes the array at
   n - 1, so a region must exist. Its first assertion, that slot n of the
   region array is NULL, reads the never-written slot of the module note and
   is not modelled.
   */
  function CompleteLoad(space: AddrSpace): (r: AddrSpace)
    requires |space.regions| >= 1
    ensures var last := space.regions[|space.regions| - 1];
            && r.heapBrk < ADDR_LIMIT
            && (r.heapBrk - RegionEnd(last)) % ADDR_LIMIT == 0
            && (RegionEnd(last) < ADDR_LIMIT ==>
                  && r.heapBrk >= last.start
                  && !Contains(last, r.heapBrk)
                  && (last.npages > 0 ==> Contains(last, r.heapBrk - 1))
                  && r.heapBrk == RegionEnd(last))
    ensures r == space.(heapBrk := r.heapBrk)
  {
    var last := space.regions[|space.regions| - 1];
    space.(heapBrk := Wrap32(last.start + last.npages * PAGE_SIZE))
  }

  /**
   Loading a single segment whose rounded length does not overflow, and
   completing the load, puts the break at the first page boundary at or
   above the segment's end, taken modulo 4 GB.
   */
  lemma DefineThenCompleteLoad(space: AddrSpace, vaddr: nat, memsize: nat, perm: nat)
    requires vaddr < ADDR_LIMIT && memsize < ADDR_LIMIT && !SizeWraps(vaddr, memsize)
    ensures var d := DefineRegion(space, vaddr, memsize, perm, true, true);
            && d.status == Success
            && var c := CompleteLoad(d.space);
            && c.heapBrk % PAGE_SIZE == 0
            && c.heapBrk == Wrap32(PageBase(vaddr + memsize + PAGE_SIZE - 1))
            && (FitsWord(vaddr, memsize) ==> vaddr + memsize <= c.heapBrk < vaddr + memsize + PAGE_SIZE)
  {
  }

  /**
   as_define_stack: defines the region [USERSTACK - STACKPAGES * PAGE_SIZE,
   USERSTACK), gives it a fresh slot array, binds its pages to the run the
   frame allocator returned (`base`), and stores the initial stack pointer
   USERSTACK. The kernel takes a `base` of 0 as a failed allocation, which
   the run allocator as written never returns (see PrepareFrom).
   */
  function DefineStack(space: AddrSpace, perm: nat, arrayOk: bool, regionOk: bool, base: nat): (r: StackStep)
    ensures r.status == Success <==> arrayOk && regionOk && base != 0
    ensures r.status != Success ==> r.status == Failure(ENOMEM) && r.stackptr == None
    ensures r.space == space.(regions := r.space.regions, capacity := r.space.capacity)
    ensures |space.regions| <= |r.space.regions| && r.space.regions[..|space.regions|] == space.regions
    // a failed allocation of the region array or record adds no region
    ensures !(arrayOk && regionOk) ==> r.space.regions == space.regions
    ensures arrayOk ==> r.space.capacity == 2 * |space.regions| + 1
    ensures !arrayOk ==> r.space == space
    // a failed run allocation leaves the stack region defined, with an empty slot array
    ensures arrayOk && regionOk && base == 0 ==>
              && |r.space.regions| == |space.regions| + 1
              && var stack := r.space.regions[|space.regions|];
              && Ready(stack) && stack.npages == STACKPAGES && stack.perm == perm
              && stack.start == USERSTACK - STACKPAGES * PAGE_SIZE
              && forall j :: 0 <= j < STACKPAGES ==> stack.pages.value[j] == None
    ensures r.status == Success ==>
              && r.stackptr == Some(USERSTACK)
              && |r.space.regions| == |space.regions| + 1
              && r.space.regions[..|space.regions|] == space.regions
              && var stack := r.space.regions[|space.regions|];
              && stack.start == USERSTACK - STACKPAGES * PAGE_SIZE
              && stack.npages == STACKPAGES
              && RegionEnd(stack) == USERSTACK
              && stack.perm == perm
              && BoundTo(stack, base)
  {
    var vaddr := USERSTACK - STACKPAGES * PAGE_SIZE;
    var memsize := STACKPAGES * PAGE_SIZE;
    var d := DefineRegion(space, vaddr, memsize, perm, arrayOk, regionOk);
    if d.status != Success then StackStep(d.space, d.status, None)
    else
      var n := |d.space.regions|;
      var stack := FreshSlots(d.space.regions[n - 1].(npages := STACKPAGES));
      if base == 0 then StackStep(d.space.(regions := d.space.regions[n - 1 := stack]), Failure(ENOMEM), None)
      else
        AlignExact(vaddr, STACKPAGES);
        StackStep(d.space.(regions := d.space.regions[n - 1 := Bind(stack, base)]), Success, Some(USERSTACK))
  }
}

=== FILE: coremap.dfy ===
/**
 The physical frame table ("coremap"): one record per physical page frame,
 with allocated / pinned / kernel / last-of-run flags, and the
 `first_free_page` cursor where single-frame and run allocation start their
 scans. The scans stop at a hard-coded index (SCAN_LIMIT) and never look at
 the size of the table, which is the RAM size in pages. On a table shorter
 than SCAN_LIMIT a scan that finds nothing reads past the table's end; each
 operation here asks only that its scan stays inside the table -- that it
 finds its frame or run before the end, or that the table reaches
 SCAN_LIMIT.
 */
module Coremap {
  import opened Types

  /** The scans in the frame table stop at this index. */
  const SCAN_LIMIT: nat := 4096

  datatype Frame = Frame(page: PageRec, isAllocated: bool, pinned: bool, kernel: bool, lastPage: bool, referenced: bool)

  datatype Coremap = Coremap(frames: seq<Frame>, firstFree: int)

  /**
   The outcome of an allocation: the updated table, the index of the frame
   whose address is handed out, and that physical address.
   */
  datatype Alloc = Alloc(cm: Coremap, index: nat, paddr: nat)

  /** Where a run search stopped: the run's start and, if the counter reached n, its last index (else -1). */
  datatype RunScan = RunScan(start: int, end: int)

  /** Frame i records physical address i * PAGE_SIZE, as boot sets it up. */
  predicate FramesNumbered(frames: seq<Frame>) {
    forall i :: 0 <= i < |frames| ==> frames[i].page.paddr == i * PAGE_SIZE
  }

  /** Some frame of the table at or after c, and below SCAN_LIMIT, is unallocated. */
  predicate HasFreeFrom(frames: seq<Frame>, c: int) {
    exists k :: 0 <= c <= k < SCAN_LIMIT && k < |frames| && !frames[k].isAllocated
  }

  /** k is the least unallocated index in [c, SCAN_LIMIT), and a frame of the table. */
  predicate IsFirstFree(frames: seq<Frame>, c: int, k: int) {
    && 0 <= c <= k < SCAN_LIMIT && k < |frames|
    && !frames[k].isAllocated
    && forall j :: c <= j < k ==> frames[j].isAllocated
  }

  /**
   The free-frame scan from c reads only frames of the table: it starts at
   or past SCAN_LIMIT, the table reaches SCAN_LIMIT, or the scan meets a free
   frame before the table ends.
   */
  predicate ScanInTable(frames: seq<Frame>, c: int) {
    c >= SCAN_LIMIT || |frames| >= SCAN_LIMIT || HasFreeFrom(frames, c)
  }

  /**
   coremap_init: frames below the reserved count hold the kernel's own
   bookkeeping and are kernel, pinned and allocated; frame i records physical
   address i * PAGE_SIZE; the cursor starts at the reserved count.
   */
  function Init(entries: nat, reserved: nat): (cm: Coremap)
    ensures |cm.frames| == entries
    ensures cm.firstFree == reserved
    ensures FramesNumbered(cm.frames)
    ensures forall i :: 0 <= i < entries ==>
              && cm.frames[i].isAllocated == (i < reserved)
              && cm.frames[i].pinned == (i < reserved)
              && cm.frames[i].kernel == (i < reserved)
              && !cm.frames[i].lastPage
    ensures reserved < entries && reserved < SCAN_LIMIT ==> HasFreeFrom(cm.frames, reserved)
  {
    var frames := seq(entries, i requires 0 <= i < entries =>
      Frame(PageRec(i * PAGE_SIZE, 0, false), i < reserved, i < reserved, i < reserved, false, false));
    assert reserved < entries ==> !frames[reserved].isAllocated;
    Coremap(frames, reserved)
  }

  /**
   The loop that coremap_nextfree and coremap_alloc_page share: the least
   unallocated index in [c, SCAN_LIMIT), or -1 when there is none.
   */
  function FreeScan(frames: seq<Frame>, c: int): (k: int)
    requires c >= 0 && ScanInTable(frames, c)
    decreases SCAN_LIMIT - c
    ensures k == -1 <==> !HasFreeFrom(frames, c)
    ensures k != -1 ==> IsFirstFree(frames, c, k)
  {
    if c >= SCAN_LIMIT then -1
    else if !frames[c].isAllocated then c
    else FreeScan(frames, c + 1)
  }

  /** coremap_nextfree: the kernel asserts that the start index is positive, then scans. */
  function NextFree(frames: seq<Frame>, c: int): (k: int)
    requires c >= 1 && ScanInTable(frames, c)
    ensures k == -1 <==> !HasFreeFrom(frames, c)
    ensures k != -1 ==> IsFirstFree(frames, c, k)
  {
    FreeScan(frames, c)
  }

  /** Where the loop of coremap_alloc_page stops when it meets no free frame. */
  function PageScanStop(c: nat): (i: nat)
    ensures i >= SCAN_LIMIT && i >= c
  {
    if c < SCAN_LIMIT then SCAN_LIMIT else c
  }

  /**
   What coremap_alloc_page needs: a cursor that indexes the table, and a
   free frame before the table ends or, failing that, a table that still
   holds the frame where the loop stops, whose address is read.
   */
  predicate CanAllocPage(cm: Coremap) {
    cm.firstFree >= 0 && (HasFreeFrom(cm.frames, cm.firstFree) || PageScanStop(cm.firstFree) < |cm.frames|)
  }

  /**
   coremap_alloc_page: marks the first unallocated frame at or after the
   cursor and returns its recorded address; the cursor is left where it is.
   When no frame below SCAN_LIMIT is free, nothing is marked, yet the
   address of the frame where the loop stopped is returned all the same.
   */
  function AllocPage(cm: Coremap): (r: Alloc)
    requires CanAllocPage(cm)
    ensures r.index < |cm.frames| && r.paddr == cm.frames[r.index].page.paddr
    ensures r.cm.firstFree == cm.firstFree
    ensures HasFreeFrom(cm.frames, cm.firstFree) ==>
              && IsFirstFree(cm.frames, cm.firstFree, r.index)
              && r.cm.frames == cm.frames[r.index := cm.frames[r.index].(isAllocated := true)]
    ensures !HasFreeFrom(cm.frames, cm.firstFree) ==> r.cm == cm && r.index == PageScanStop(cm.firstFree)
    ensures FramesNumbered(cm.frames) ==> FramesNumbered(r.cm.frames) && r.paddr == r.index * PAGE_SIZE
  {
    var k := FreeScan(cm.frames, cm.firstFree);
    if k == -1 then
      var i := PageScanStop(cm.firstFree);
      Alloc(cm, i, cm.frames[i].page.paddr)
    else
      var f := cm.frames[k];
      Alloc(Coremap(cm.frames[k := f.(isAllocated := true)], cm.firstFree), k, f.page.paddr)
  }

  /**
   The search loop of coremap_alloc_npages from index i on, with the current
   run start and counter. On an allocated frame the counter resets and the
   start becomes nextfree(start) -- which is start itself whenever start is
   free, so the start moves at most once. When the counter reaches n the
   search stops. On a table shorter than SCAN_LIMIT the model also stops at
   the table's end, where the kernel would read on past it; AllocNPages
   asks that such a search finds its run first.
   */
  function ScanRun(frames: seq<Frame>, n: nat, i: int, start: int, found: nat): (r: RunScan)
    requires 1 <= start && HasFreeFrom(frames, start)
    requires !frames[start].isAllocated || start == i
    requires 0 <= i - found && i <= SCAN_LIMIT && i <= |frames|
    requires forall j :: i - found <= j < i ==> !frames[j].isAllocated
    decreases SCAN_LIMIT - i
    ensures start <= r.start && HasFreeFrom(frames, r.start)
    ensures !frames[r.start].isAllocated
    ensures r.start == start || r.start == NextFree(frames, start)
    ensures !frames[start].isAllocated ==> r.start == start
    ensures r.end != -1 ==>
              && i <= r.end < SCAN_LIMIT && r.end < |frames|
              && i - found <= r.end - n + 1
              && forall j :: r.end - n < j <= r.end ==> !frames[j].isAllocated
  {
    if i >= SCAN_LIMIT || i >= |frames| then RunScan(start, -1)
    else
      var start' := if frames[i].isAllocated then NextFree(frames, start) else start;
      var found' := if frames[i].isAllocated then 0 else found + 1;
      if found' == n then RunScan(start', i)
      else ScanRun(frames, n, i + 1, start', found')
  }

  /** The marking step: allocated on [s, e], last-page marker on e. */
  function MarkRun(frames: seq<Frame>, s: int, e: nat): (r: seq<Frame>)
    requires e < |frames|
    ensures |r| == |frames|
    ensures forall j :: 0 <= j < |frames| ==>
              && r[j].page == frames[j].page
              && r[j].isAllocated == (frames[j].isAllocated || s <= j <= e)
              && r[j].lastPage == (frames[j].lastPage || j == e)
              && r[j].pinned == frames[j].pinned
              && r[j].kernel == frames[j].kernel
              && r[j].referenced == frames[j].referenced
  {
    seq(|frames|, j requires 0 <= j < |frames| =>
      var f := if j == e then frames[j].(lastPage := true) else frames[j];
      if s <= j <= e then f.(isAllocated := true) else f)
  }

  /**
   What coremap_alloc_npages needs: a positive cursor (nextfree asserts it
   of the index it is given) with a free frame at or after it, since the
   table is indexed at the run start; and, on a table shorter than
   SCAN_LIMIT, a search that completes its run before the table ends and a
   free frame after that run, where the cursor update stops.
   */
  predicate CanAllocNPages(cm: Coremap, n: nat) {
    && cm.firstFree >= 1 && HasFreeFrom(cm.frames, cm.firstFree)
    && (|cm.frames| < SCAN_LIMIT ==>
          var s := ScanRun(cm.frames, n, cm.firstFree, cm.firstFree, 0);
          s.end != -1 && HasFreeFrom(cm.frames, s.end + 1))
  }

  /** coremap_alloc_npages, as written. */
  function AllocNPages(cm: Coremap, n: nat): (r: Alloc)
    requires CanAllocNPages(cm, n)
    ensures |r.cm.frames| == |cm.frames|
    // the start never moves backwards, so the cursor guard always holds
    ensures cm.firstFree <= r.index
    ensures r.index == cm.firstFree || r.index == NextFree(cm.frames, cm.firstFree)
    ensures forall j :: 0 <= j < cm.firstFree ==> r.cm.frames[j] == cm.frames[j]
    // the returned frame was free before the call
    ensures !cm.frames[r.index].isAllocated
    ensures forall j :: 0 <= j < |cm.frames| ==> r.cm.frames[j].page == cm.frames[j].page
    ensures ScanInTable(r.cm.frames, r.index)
    ensures r.cm.firstFree == NextFree(r.cm.frames, r.index)
    ensures r.cm.firstFree == -1 || r.cm.firstFree >= cm.firstFree
    ensures r.paddr == cm.frames[r.index].page.paddr
    ensures FramesNumbered(cm.frames) ==> FramesNumbered(r.cm.frames) && r.paddr == r.index * PAGE_SIZE
  {
    var scan := ScanRun(cm.frames, n, cm.firstFree, cm.firstFree, 0);
    var frames := if scan.end == -1 then cm.frames else MarkRun(cm.frames, scan.start, scan.end);
    assert |cm.frames| < SCAN_LIMIT ==> HasFreeFrom(frames, scan.start) by {
      if |cm.frames| < SCAN_LIMIT {
        var k :| scan.end + 1 <= k < SCAN_LIMIT && k < |cm.frames| && !cm.frames[k].isAllocated;
        if scan.start <= scan.end {
          assert !frames[k].isAllocated;
        } else {
          assert !frames[scan.start].isAllocated;
        }
      }
    }
    var ff := if cm.firstFree <= scan.start then NextFree(frames, scan.start) else cm.firstFree;
    Alloc(Coremap(frames, ff), scan.start, frames[scan.start].page.paddr)
  }

  /**
   What coremap_alloc_npages marks. Without a run nothing is marked, yet an
   address is still returned. A completed run holds n genuinely free frames
   ending at its end, but everything from the returned frame to that end is
   marked, allocated or not before.
   */
  lemma AllocNPagesMarksRun(cm: Coremap, n: nat)
    requires CanAllocNPages(cm, n)
    ensures var r := AllocNPages(cm, n);
            var s := ScanRun(cm.frames, n, cm.firstFree, cm.firstFree, 0);
            && (s.end == -1 ==> r.cm.frames == cm.frames && !r.cm.frames[r.index].isAllocated)
            && (s.end != -1 && n >= 1 ==>
                  && r.index <= s.end - n + 1
                  && forall j :: s.end - n < j <= s.end ==> !cm.frames[j].isAllocated)
            && (s.end != -1 ==>
                  && (forall j :: r.index <= j <= s.end ==> r.cm.frames[j].isAllocated)
                  && r.cm.frames[s.end].lastPage
                  && (forall j :: 0 <= j < |cm.frames| && !(r.index <= j <= s.end) && j != s.end ==>
                        r.cm.frames[j] == cm.frames[j]))
  {
    var scan := ScanRun(cm.frames, n, cm.firstFree, cm.firstFree, 0);
    if scan.end != -1 && n >= 1 && scan.start != cm.firstFree {
      var f := scan.end - n + 1;
      assert cm.firstFree <= f && !cm.frames[f].isAllocated;
      assert IsFirstFree(cm.frames, cm.firstFree, scan.start);
    }
  }

  /**
   With frames numbered by address, the run allocator never returns 0, the
   value its callers take as failure: the returned frame lies at or after
   the cursor, which is past frame 0.
   */
  lemma AllocNPagesNeverReturnsZero(cm: Coremap, n: nat)
    requires CanAllocNPages(cm, n) && FramesNumbered(cm.frames)
    ensures AllocNPages(cm, n).paddr != 0
  {
  }

  /**
   A search that finds no run still hands out an address: that of the run
   start, a frame that is not zero and that the call leaves unallocated.
   */
  lemma FailedRunSearchHandsOutFreeFrame(cm: Coremap, n: nat)
    requires CanAllocNPages(cm, n) && FramesNumbered(cm.frames)
    requires ScanRun(cm.frames, n, cm.firstFree, cm.firstFree, 0).end == -1
    ensures var r := AllocNPages(cm, n);
            && r.paddr != 0
            && r.paddr == r.index * PAGE_SIZE
            && r.cm.frames == cm.frames
            && !r.cm.frames[r.index].isAllocated
  {
  }

  /** Over free frames the search simply counts up to n from where it is. */
  lemma {:induction false} ScanRunOverFreeFrames(frames: seq<Frame>, n: nat, i: int, start: int, found: nat)
    requires 1 <= start && HasFreeFrom(frames, start) && !frames[start].isAllocated
    requires 0 <= i - found && i <= SCAN_LIMIT && i <= |frames|
    requires forall j :: i - found <= j < i ==> !frames[j].isAllocated
    requires found < n && i + (n - found) <= SCAN_LIMIT && i + (n - found) <= |frames|
    requires forall j :: i <= j < i + (n - found) ==> !frames[j].isAllocated
    ensures ScanRun(frames, n, i, start, found) == RunScan(start, i + (n - found) - 1)
    decreases SCAN_LIMIT - i
  {
    assert !frames[i].isAllocated;
    if found + 1 < n {
      ScanRunOverFreeFrames(frames, n, i + 1, start, found + 1);
    }
  }

  /**
   Frames e - n + 1 .. e form a run of n unallocated frames of the table
   that starts at or after lo and ends below SCAN_LIMIT.
   */
  predicate RunEndsAt(frames: seq<Frame>, n: nat, lo: int, e: int) {
    && 0 <= lo && lo + n - 1 <= e < SCAN_LIMIT && e < |frames|
    && forall j :: e - n < j <= e ==> !frames[j].isAllocated
  }

  /** e is the least end of such a run. */
  ghost predicate FirstRunEndsAt(frames: seq<Frame>, n: nat, lo: int, e: int) {
    RunEndsAt(frames, n, lo, e) && forall e' :: RunEndsAt(frames, n, lo, e') ==> e <= e'
  }

  /** While fewer than n frames from lo have been passed, every run from lo ends at or after i, so none once i is past the scan. */
  lemma RunsEndFrom(frames: seq<Frame>, n: nat, lo: int, i: int)
    requires lo <= i <= lo + n - 1
    ensures forall e :: RunEndsAt(frames, n, lo, e) ==> i <= e
    ensures i >= SCAN_LIMIT || i >= |frames| ==> forall e :: !RunEndsAt(frames, n, lo, e)
  {
  }

  /** No run from lo that ends at or after i covers an allocated frame i, so such runs are those from i + 1. */
  lemma RunsSkipAllocated(frames: seq<Frame>, n: nat, lo: int, i: int)
    requires 0 <= lo <= i < |frames| && frames[i].isAllocated && i <= lo + n - 1
    ensures forall e :: RunEndsAt(frames, n, lo, e) <==> RunEndsAt(frames, n, i + 1, e)
  {
    forall e | RunEndsAt(frames, n, lo, e) ensures RunEndsAt(frames, n, i + 1, e) {
      if e - n < i {
        assert false;
      }
    }
  }

  /**
   A search in progress, with found < n free frames counted just before i
   (from lo = i - found on), completes no later than any run of n free
   frames starting at or after lo and ending in the rest of the scanned
   range.
   */
  lemma {:induction false} ScanRunFindsFirstRunFrom(frames: seq<Frame>, n: nat, lo: int, i: int, start: int, found: nat)
    requires lo == i - found
    requires 1 <= start && HasFreeFrom(frames, start)
    requires !frames[start].isAllocated || start == i
    requires 0 <= i - found && i <= SCAN_LIMIT && i <= |frames|
    requires forall j :: i - found <= j < i ==> !frames[j].isAllocated
    requires 1 <= n && found < n
    decreases SCAN_LIMIT - i
    ensures forall e :: RunEndsAt(frames, n, lo, e) ==>
              var s := ScanRun(frames, n, i, start, found);
              s.end != -1 && s.end <= e
  {
    RunsEndFrom(frames, n, lo, i);
    if i >= SCAN_LIMIT || i >= |frames| {
    } else if frames[i].isAllocated {
      RunsSkipAllocated(frames, n, lo, i);
      ScanRunFindsFirstRunFrom(frames, n, i + 1, i + 1, NextFree(frames, start), 0);
    } else if found + 1 < n {
      ScanRunFindsFirstRunFrom(frames, n, lo, i + 1, start, found + 1);
    }
  }

  /**
   The run search of coremap_alloc_npages from cursor c finds a run of n
   frames exactly when one ends before SCAN_LIMIT and inside the table, and
   then the first such run: the least end, and so the lowest start.
   */
  lemma RunSearchFindsFirstRun(frames: seq<Frame>, c: int, n: nat)
    requires 1 <= c && HasFreeFrom(frames, c) && 1 <= n
    ensures var s := ScanRun(frames, n, c, c, 0);
            && (s.end == -1 <==> forall e :: !RunEndsAt(frames, n, c, e))
            && (s.end != -1 ==> RunEndsAt(frames, n, c, s.end))
            && forall e :: RunEndsAt(frames, n, c, e) ==> s.end <= e
  {
    ScanRunFindsFirstRunFrom(frames, n, c, c, c, 0);
    var s := ScanRun(frames, n, c, c, 0);
    if s.end != -1 {
      assert RunEndsAt(frames, n, c, s.end);
    }
  }

  /**
   coremap_alloc_npages takes the first run of n free frames after the
   cursor: with none, it marks nothing; otherwise the least run end gets the
   last-page mark and every frame of that run is allocated.
   */
  lemma AllocNPagesTakesFirstRun(cm: Coremap, n: nat)
    requires CanAllocNPages(cm, n) && 1 <= n
    ensures var r := AllocNPages(cm, n);
            && ((forall e :: !RunEndsAt(cm.frames, n, cm.firstFree, e)) ==> r.cm.frames == cm.frames)
            && forall e :: FirstRunEndsAt(cm.frames, n, cm.firstFree, e) ==>
                 && r.cm.frames[e].lastPage
                 && forall j :: e - n < j <= e ==> r.cm.frames[j].isAllocated
  {
    RunSearchFindsFirstRun(cm.frames, cm.firstFree, n);
    AllocNPagesMarksRun(cm, n);
  }

  /**
   Right after boot, an n-frame run starts at the first unreserved frame,
   covers exactly n frames, and the cursor moves just past it. A table
   shorter than SCAN_LIMIT needs a free frame after the run.
   */
  lemma BootRunIsExact(entries: nat, reserved: nat, n: nat)
    requires 1 <= reserved && 1 <= n && reserved + n <= SCAN_LIMIT && reserved + n <= entries
    requires entries < SCAN_LIMIT ==> reserved + n < entries
    ensures var cm := Init(entries, reserved);
            && CanAllocNPages(cm, n)
            && var r := AllocNPages(cm, n);
            && r.index == reserved
            && r.paddr == reserved * PAGE_SIZE
            && (forall j :: 0 <= j < entries ==> r.cm.frames[j].isAllocated == (j < reserved + n))
            && r.cm.frames[reserved + n - 1].lastPage
            && r.cm.firstFree == (if reserved + n < SCAN_LIMIT then reserved + n else -1)
  {
    var cm := Init(entries, reserved);
    assert !cm.frames[reserved].isAllocated;
    ScanRunOverFreeFrames(cm.frames, n, reserved, reserved, 0);
    if entries < SCAN_LIMIT {
      assert !cm.frames[reserved + n].isAllocated;
    }
    var r := AllocNPages(cm, n);
    AllocNPagesMarksRun(cm, n);
    if reserved + n < SCAN_LIMIT && reserved + n < entries {
      assert !r.cm.frames[reserved + n].isAllocated;
      assert IsFirstFree(r.cm.frames, reserved, reserved + n);
    } else {
      assert !HasFreeFrom(r.cm.frames, reserved);
    }
  }

  /** Right after boot, the first single-frame allocation takes the first unreserved frame. */
  lemma BootPageIsFirstUnreserved(entries: nat, reserved: nat)
    requires reserved < entries && reserved < SCAN_LIMIT
    ensures var r := AllocPage(Init(entries, reserved));
            && r.index == reserved
            && r.paddr == reserved * PAGE_SIZE
            && r.cm.firstFree == reserved
  {
  }

  /**
   An eight-frame table (32 KB of RAM) where the cursor's frame 1 is free,
   frame 2 is allocated, frames 3 and 4 are free, and so is frame 6;
   everything else is allocated.
   */
  function GapExample(): (cm: Coremap)
    ensures |cm.frames| == 8 && cm.firstFree == 1
  {
    Coremap(seq(8, i requires 0 <= i < 8 =>
      Frame(PageRec(i * PAGE_SIZE, 0, false), !(i == 1 || i == 3 || i == 4 || i == 6), false, false, false, false)), 1)
  }

  /**
   The run search restarts at nextfree(start), not past the allocated frame:
   a request for two frames on GapExample returns the address of frame 1,
   marks frames 1..4 as the run, and so hands out frame 2, which was
   already allocated. The cursor then moves on to frame 6.
   */
  lemma AllocNPagesCanOverlapAllocated()
    ensures var cm := GapExample();
            && CanAllocNPages(cm, 2)
            && var r := AllocNPages(cm, 2);
            && r.index == 1
            && cm.frames[r.index + 1].isAllocated
            && ScanRun(cm.frames, 2, 1, 1, 0) == RunScan(1, 4)
            && r.cm.frames[4].lastPage
            && r.cm.firstFree == 6
  {
    var cm := GapExample();
    assert !cm.frames[1].isAllocated;
    assert cm.frames[2].isAllocated && !cm.frames[3].isAllocated && !cm.frames[4].isAllocated;
    assert cm.frames[5].isAllocated && !cm.frames[6].isAllocated;
    assert NextFree(cm.frames, 1) == 1;
    assert ScanRun(cm.frames, 2, 4, 1, 1) == RunScan(1, 4);
    assert ScanRun(cm.frames, 2, 3, 1, 0) == RunScan(1, 4);
    assert ScanRun(cm.frames, 2, 2, 1, 1) == RunScan(1, 4);
    AllocNPagesMarksRun(cm, 2);
    var r := AllocNPages(cm, 2);
    assert IsFirstFree(r.cm.frames, 1, 6);
  }
}

=== FILE: filetable.dfy ===
/**
 The per-process file table: an array of pointers to open-file entries,
 indexed by file descriptor, with `maxfd` (the highest index, the array
 being maxfd + 1 long) and `openfds` (meant to count the used slots).
 Entries live in a store keyed by an abstract pointer; a slot holds the
 key. An entry is shared by every slot (in this and other tables) that
 holds its key, and `refcount` is meant to count those slots.
 */
module FileTable {
  import opened Types
  import opened Slots

  /** Size bound of the table (OPEN_MAX in OS/161). */
  const MAXFDS: int := 128

  const O_RDONLY: int := 0
  const O_WRONLY: int := 1
  const O_RDWR: int := 2
  const O_ACCMODE: int := 3

  datatype FileEntry = FileEntry(name: string, node: nat, offset: int, flags: int, mode: int, refcount: int)

  /** Live open-file entries, by pointer. */
  type Store = map<nat, FileEntry>

  datatype FileTable = FileTable(slots: seq<Option<nat>>, maxfd: int, openfds: int)

  /** The array is maxfd + 1 slots long, and maxfd stays below MAXFDS. */
  predicate Wf(ft: FileTable) {
    -1 <= ft.maxfd < MAXFDS && |ft.slots| == ft.maxfd + 1
  }

  /** The last slot of a non-empty table is used. */
  predicate TopUsed(ft: FileTable)
    requires Wf(ft)
  {
    ft.maxfd >= 0 ==> ft.slots[ft.maxfd].Some?
  }

  /** The bookkeeping filetable_copy asserts: the top slot is used and openfds counts the used slots. */
  predicate Consistent(ft: FileTable) {
    Wf(ft) && TopUsed(ft) && ft.openfds == Count(ft.slots)
  }

  /** `openflags & O_ACCMODE` in two's complement: the low two bits. */
  function AccessMode(flags: int): (m: int)
    ensures 0 <= m <= O_ACCMODE
    ensures (flags - m) % 4 == 0
  {
    flags % 4
  }

  /**
   file_entry_create: a new entry at the fresh pointer id, offset 0, one
   reference. allocOk is false when one of its three allocations fails.
   */
  function EntryCreate(store: Store, id: nat, name: string, flags: int, node: nat, allocOk: bool): (r: Option<Store>)
    requires id !in store
    ensures r.Some? <==> allocOk
    ensures r.Some? ==>
              && r.value.Keys == store.Keys + {id}
              && (forall k :: k in store ==> r.value[k] == store[k])
              && r.value[id].name == name && r.value[id].node == node && r.value[id].flags == flags
              && r.value[id].offset == 0 && r.value[id].refcount == 1
              && r.value[id].mode in {O_RDONLY, O_WRONLY, O_RDWR, O_ACCMODE}
              && (flags - r.value[id].mode) % 4 == 0
  {
    if !allocOk then None
    else Some(store[id := FileEntry(name, node, 0, flags, AccessMode(flags), 1)])
  }

  /** file_entry_destroy: drop one reference; the last one frees the entry. */
  function EntryDestroy(store: Store, id: nat): (r: Store)
    requires id in store
    ensures store[id].refcount == 1 ==> r.Keys == store.Keys - {id}
    ensures store[id].refcount != 1 ==>
              r.Keys == store.Keys && r[id] == store[id].(refcount := store[id].refcount - 1)
    ensures forall k :: k in store && k != id ==> k in r && r[k] == store[k]
  {
    if store[id].refcount == 1 then store - {id}
    else store[id := store[id].(refcount := store[id].refcount - 1)]
  }

  /** One more reference on entry id, as filetable_copy takes for each used slot. */
  function Share(store: Store, id: nat): (r: Store)
    ensures r.Keys == store.Keys
    ensures forall k :: k in store ==>
              r[k] == store[k].(refcount := store[k].refcount + (if k == id then 1 else 0))
  {
    if id in store then store[id := store[id].(refcount := store[id].refcount + 1)] else store
  }

  /** Creating an entry and destroying it leaves the store as it was. */
  lemma CreateThenDestroyRestores(store: Store, id: nat, name: string, flags: int, node: nat)
    requires id !in store
    ensures var s := EntryCreate(store, id, name, flags, node, true);
            s.Some? && EntryDestroy(s.value, id) == store
  {
  }

  /** Taking a reference and dropping it again leaves the store as it was. */
  lemma ShareThenDestroyRestores(store: Store, id: nat)
    requires id in store && store[id].refcount >= 1
    ensures EntryDestroy(Share(store, id), id) == store
  {
  }

  /** Dropping a reference keeps every surviving entry referenced at least once. */
  lemma DestroyKeepsRefcountsPositive(store: Store, id: nat)
    requires id in store
    requires forall k :: k in store ==> store[k].refcount >= 1
    ensures var r := EntryDestroy(store, id);
            forall k :: k in r ==> r[k].refcount >= 1
  {
  }

  /** filetable_checkfd: the descriptor indexes the array. */
  function CheckFd(ft: FileTable, fd: int): (ok: bool)
    requires Wf(ft)
    ensures ok <==> 0 <= fd < |ft.slots|
  {
    !(fd < 0 || fd >= MAXFDS) && !(fd > ft.maxfd)
  }

  /** filetable_get: the slot's pointer, or NULL for a descriptor out of range. */
  function Get(ft: FileTable, fd: int): (r: Option<nat>)
    requires Wf(ft)
    ensures r == (if 0 <= fd < |ft.slots| then ft.slots[fd] else None)
  {
    if !CheckFd(ft, fd) then None else ft.slots[fd]
  }

  datatype SetResult = SetResult(ft: FileTable, status: Status)

  /**
   filetable_set: store the pointer at fd, growing the array (growOk is
   whether array_setsize succeeds) when fd is past the end. The slot is
   overwritten whether or not it was used, and openfds always goes up.
   */
  function Set(ft: FileTable, fd: int, id: nat, growOk: bool): (r: SetResult)
    requires Wf(ft)
    ensures Wf(r.ft)
    ensures r.status == Success <==> 0 <= fd < MAXFDS && (fd < |ft.slots| || growOk)
    ensures !(0 <= fd < MAXFDS) ==> r == SetResult(ft, Failure(EBADF))
    ensures 0 <= fd < MAXFDS && |ft.slots| <= fd && !growOk ==> r == SetResult(ft, Failure(ENOMEM))
    ensures r.status == Success ==>
              && |r.ft.slots| == (if fd < |ft.slots| then |ft.slots| else fd + 1)
              && r.ft.slots[fd] == Some(id)
              && (forall j :: 0 <= j < |ft.slots| && j != fd ==> r.ft.slots[j] == ft.slots[j])
              && (forall j :: |ft.slots| <= j < fd ==> r.ft.slots[j].None?)
              && r.ft.openfds == ft.openfds + 1
  {
    if fd < 0 || fd >= MAXFDS then SetResult(ft, Failure(EBADF))
    else if fd > ft.maxfd then
      if !growOk then SetResult(ft, Failure(ENOMEM))
      else SetResult(FileTable(ft.slots + Nulls(fd - ft.maxfd - 1) + [Some(id)], fd, ft.openfds + 1), Success)
    else SetResult(FileTable(ft.slots[fd := Some(id)], ft.maxfd, ft.openfds + 1), Success)
  }

  /** A successful set makes get return the pointer, and leaves every other valid descriptor alone. */
  lemma GetAfterSet(ft: FileTable, fd: int, id: nat, growOk: bool)
    requires Wf(ft)
    ensures var r := Set(ft, fd, id, growOk);
            r.status == Success ==>
              && Get(r.ft, fd) == Some(id)
              && forall g :: CheckFd(ft, g) && g != fd ==> Get(r.ft, g) == Get(ft, g)
  {
  }

  /** Setting an empty descriptor keeps the bookkeeping consistent. */
  lemma SetEmptyKeepsConsistent(ft: FileTable, fd: int, id: nat, growOk: bool)
    requires Consistent(ft) && Get(ft, fd).None?
    ensures var r := Set(ft, fd, id, growOk);
            r.status == Success ==> Consistent(r.ft)
  {
    var r := Set(ft, fd, id, growOk);
    if r.status == Success {
      if fd < |ft.slots| {
        assert r.ft.slots == ft.slots[fd := Some(id)];
        CountUpdate(ft.slots, fd, Some(id));
      } else {
        var pad: seq<Option<nat>> := Nulls(fd - ft.maxfd - 1);
        assert r.ft.slots == ft.slots + pad + [Some(id)];
        CountConcat(ft.slots + pad, [Some(id)]);
        CountConcat(ft.slots, pad);
      }
    }
  }

  /** Setting a used descriptor (the leak the source warns of) leaves openfds one above the used-slot count. */
  lemma SetUsedOvercounts(ft: FileTable, fd: int, id: nat, growOk: bool)
    requires Consistent(ft) && Get(ft, fd).Some?
    ensures var r := Set(ft, fd, id, growOk);
            r.status == Success && r.ft.openfds == Count(r.ft.slots) + 1
  {
    CountUpdate(ft.slots, fd, Some(id));
  }

  datatype RemoveResult = RemoveResult(ft: FileTable, store: Store, status: Status)

  /** A used slot at fd points to a live entry (filetable_remove destroys it). */
  predicate LiveAt(ft: FileTable, store: Store, fd: int)
    requires Wf(ft)
  {
    0 <= fd < |ft.slots| && ft.slots[fd].Some? ==> ft.slots[fd].value in store
  }

  /**
   filetable_remove: drop the slot's reference. Removing the top slot
   shrinks the array to end at the highest used slot below it; any other
   slot keeps its (now possibly dangling) pointer.
   */
  function Remove(ft: FileTable, store: Store, fd: int): (r: RemoveResult)
    requires Wf(ft) && LiveAt(ft, store, fd)
    ensures Wf(r.ft)
    ensures r.status == Failure(EBADF) <==> !(0 <= fd < |ft.slots|)
    ensures r.status == Failure(EBADF) || r.status == Success
    ensures !(0 <= fd < |ft.slots|) || ft.slots[fd].None? ==> r.ft == ft && r.store == store
    ensures 0 <= fd < |ft.slots| && ft.slots[fd].Some? ==>
              && r.store == EntryDestroy(store, ft.slots[fd].value)
              && r.ft.openfds == ft.openfds - 1
              && (fd < ft.maxfd ==> r.ft.slots == ft.slots)
              && (fd == ft.maxfd ==>
                    && r.ft.maxfd < fd
                    && r.ft.slots == ft.slots[..r.ft.maxfd + 1]
                    && (r.ft.maxfd >= 0 ==> ft.slots[r.ft.maxfd].Some?)
                    && forall j :: r.ft.maxfd < j < fd ==> ft.slots[j].None?)
  {
    if !CheckFd(ft, fd) then RemoveResult(ft, store, Failure(EBADF))
    else match ft.slots[fd]
      case None => RemoveResult(ft, store, Success)
      case Some(id) =>
        var st := EntryDestroy(store, id);
        if fd == ft.maxfd then
          var i := HighestBelow(ft.slots, fd);
          RemoveResult(FileTable(ft.slots[..i + 1], i, ft.openfds - 1), st, Success)
        else RemoveResult(FileTable(ft.slots, ft.maxfd, ft.openfds - 1), st, Success)
  }

  /** Removing the top descriptor keeps the bookkeeping consistent, and the descriptor is gone. */
  lemma RemoveTopKeepsConsistent(ft: FileTable, store: Store, fd: int)
    requires Consistent(ft) && LiveAt(ft, store, fd) && fd == ft.maxfd >= 0
    ensures var r := Remove(ft, store, fd);
            Consistent(r.ft) && Get(r.ft, fd).None?
  {
    var r := Remove(ft, store, fd);
    var k := r.ft.maxfd + 1;
    var pre := ft.slots[..fd];
    assert ft.slots == pre + [ft.slots[fd]];
    CountConcat(pre, [ft.slots[fd]]);
    CountNullTail(pre, k);
    assert pre[..k] == r.ft.slots;
  }

  /**
   Removing a used descriptor below the top leaves its slot pointing at the
   dropped entry (freed if that was its last reference) and openfds one
   below the used-slot count.
   */
  lemma RemoveBelowTopLeavesSlot(ft: FileTable, store: Store, fd: int)
    requires Consistent(ft) && LiveAt(ft, store, fd) && 0 <= fd < ft.maxfd && ft.slots[fd].Some?
    ensures var r := Remove(ft, store, fd);
            && r.status == Success
            && Get(r.ft, fd) == ft.slots[fd]
            && (store[ft.slots[fd].value].refcount == 1 ==> ft.slots[fd].value !in r.store)
            && r.ft.openfds == Count(r.ft.slots) - 1
            && !Consistent(r.ft)
  {
  }

  datatype FdResult = Fd(fd: nat) | FdError(errno: Errno)
  datatype AddResult = AddResult(ft: FileTable, ret: FdResult)

  /**
   filetable_add: put the pointer in the first NULL slot below the top, or
   else append a slot after it. The source returns the descriptor and the
   error code through the same int; they are told apart here.
   */
  function Add(ft: FileTable, id: nat, growOk: bool): (r: AddResult)
    requires Wf(ft)
    ensures Wf(r.ft)
    ensures r.ret.FdError? ==> r.ft == ft
    ensures r.ret.Fd? ==>
              && r.ret.fd <= |ft.slots|
              && (r.ret.fd < |ft.slots| ==> r.ret.fd < ft.maxfd && ft.slots[r.ret.fd].None?)
              && (forall j :: 0 <= j < r.ret.fd && j < ft.maxfd ==> ft.slots[j].Some?)
              && Get(r.ft, r.ret.fd) == Some(id)
              && |r.ft.slots| == (if r.ret.fd < |ft.slots| then |ft.slots| else |ft.slots| + 1)
              && (forall j :: 0 <= j < |ft.slots| && j != r.ret.fd ==> r.ft.slots[j] == ft.slots[j])
              && r.ft.openfds == ft.openfds + 1
    ensures r.ret == FdError(EMFILE) <==>
              ft.maxfd == MAXFDS - 1 && forall j :: 0 <= j < ft.maxfd ==> ft.slots[j].Some?
    ensures r.ret.FdError? && r.ret.errno != EMFILE ==>
              !growOk && r.ret.errno == (if ft.maxfd == -1 then ENOMEM else ENOSPC)
    // a hole below the top is always filled, whether or not growth would succeed
    ensures (exists j :: 0 <= j < ft.maxfd && ft.slots[j].None?) ==> r.ret.Fd?
    // a full table below the descriptor limit must grow, and a failed growth is an error
    ensures !growOk && ft.maxfd != -1 && ft.maxfd < MAXFDS - 1 && (forall j :: 0 <= j < ft.maxfd ==> ft.slots[j].Some?) ==>
              r.ret.FdError?
  {
    if ft.maxfd == -1 then
      var s := Set(ft, 0, id, growOk);
      AddResult(s.ft, if s.status.Success? then Fd(0) else FdError(s.status.errno))
    else
      var i := FirstHole(ft.slots, 0, ft.maxfd);
      if i < ft.maxfd then AddResult(FileTable(ft.slots[i := Some(id)], ft.maxfd, ft.openfds + 1), Fd(i))
      else if i == MAXFDS - 1 then AddResult(ft, FdError(EMFILE))
      else if !growOk then AddResult(ft, FdError(ENOSPC))
      else AddResult(FileTable(ft.slots + [Some(id)], i + 1, ft.openfds + 1), Fd(i + 1))
  }

  /** In a consistent table, add hands out the lowest free descriptor. */
  lemma AddTakesLowestFree(ft: FileTable, id: nat, growOk: bool)
    requires Consistent(ft)
    ensures var r := Add(ft, id, growOk);
            r.ret.Fd? ==> Get(ft, r.ret.fd).None? && forall j :: 0 <= j < r.ret.fd ==> Get(ft, j).Some?
  {
  }

  /** A successful add keeps the bookkeeping consistent. */
  lemma AddKeepsConsistent(ft: FileTable, id: nat, growOk: bool)
    requires Consistent(ft)
    ensures var r := Add(ft, id, growOk);
            r.ret.Fd? ==> Consistent(r.ft)
  {
    var r := Add(ft, id, growOk);
    if r.ret.Fd? {
      var fd := r.ret.fd;
      if fd < |ft.slots| {
        assert r.ft.slots == ft.slots[fd := Some(id)];
        CountUpdate(ft.slots, fd, Some(id));
      } else {
        assert r.ft.slots == ft.slots + [Some(id)];
        CountConcat(ft.slots, [Some(id)]);
      }
    }
  }

  /**
   Opening a file into a table with no free slot below its top and closing
   the descriptor again restores both the table and the entry store.
   */
  lemma AddThenRemoveRestores(ft: FileTable, store: Store, id: nat, name: string, flags: int, node: nat, growOk: bool)
    requires Consistent(ft) && id !in store
    requires forall j :: 0 <= j < |ft.slots| ==> ft.slots[j].Some?
    ensures var st := EntryCreate(store, id, name, flags, node, true).value;
            var a := Add(ft, id, growOk);
            a.ret.Fd? ==>
              && a.ret.fd == |ft.slots|
              && LiveAt(a.ft, st, a.ret.fd)
              && Remove(a.ft, st, a.ret.fd) == RemoveResult(ft, store, Success)
  {
  }

  /** The table and store a copy loop carries. */
  datatype Snapshot = Snapshot(ft: FileTable, store: Store)

  /**
   The loop of filetable_copy from descriptor i on: every used slot of src
   is set at the same index of dest and its entry gains a reference.
   */
  function CopyLoop(src: FileTable, i: nat, dest: FileTable, store: Store): (r: Snapshot)
    requires Wf(src) && Wf(dest) && i <= |src.slots|
    decreases |src.slots| - i
    ensures Wf(r.ft)
  {
    if i == |src.slots| then Snapshot(dest, store)
    else match Get(src, i)
      case None => CopyLoop(src, i + 1, dest, store)
      case Some(id) => CopyLoop(src, i + 1, Set(dest, i, id, true).ft, Share(store, id))
  }

  /**
   While dest mirrors src up to its highest used slot below i, the copy
   loop ends with dest mirroring all of src up to its highest used slot.
   */
  lemma {:induction false} CopyLoopMirrors(src: FileTable, i: nat, dest: FileTable, store: Store)
    requires Wf(src) && Wf(dest) && i <= |src.slots|
    requires dest.maxfd == HighestBelow(src.slots, i)
    requires dest.slots == src.slots[..dest.maxfd + 1]
    decreases |src.slots| - i
    ensures var r := CopyLoop(src, i, dest, store);
            && r.ft.maxfd == HighestBelow(src.slots, |src.slots|)
            && r.ft.slots == src.slots[..r.ft.maxfd + 1]
  {
    if i < |src.slots| {
      match Get(src, i)
      case None =>
        CopyLoopMirrors(src, i + 1, dest, store);
      case Some(id) =>
        CopySetStep(src, i, dest, id);
        CopyLoopMirrors(src, i + 1, Set(dest, i, id, true).ft, Share(store, id));
    }
  }

  /** The copy loop from descriptor i on adds one to openfds per used slot of src at or after i. */
  lemma {:induction false} CopyLoopCounts(src: FileTable, i: nat, dest: FileTable, store: Store)
    requires Wf(src) && Wf(dest) && i <= |src.slots|
    decreases |src.slots| - i
    ensures CopyLoop(src, i, dest, store).ft.openfds == dest.openfds + Count(src.slots[i..])
  {
    if i < |src.slots| {
      assert src.slots[i..][1..] == src.slots[i + 1..];
      match Get(src, i)
      case None =>
        CopyLoopCounts(src, i + 1, dest, store);
      case Some(id) =>
        CopyLoopCounts(src, i + 1, Set(dest, i, id, true).ft, Share(store, id));
    }
  }

  /** The copy loop from descriptor i on gives each entry one reference per slot of src at or after i. */
  lemma {:induction false} CopyLoopAddsReferences(src: FileTable, i: nat, dest: FileTable, store: Store)
    requires Wf(src) && Wf(dest) && i <= |src.slots|
    decreases |src.slots| - i
    ensures var r := CopyLoop(src, i, dest, store);
            && r.store.Keys == store.Keys
            && forall k :: k in store ==>
                 r.store[k] == store[k].(refcount := store[k].refcount + Occ(src.slots[i..], k))
  {
    if i < |src.slots| {
      assert src.slots[i..][1..] == src.slots[i + 1..];
      match Get(src, i)
      case None =>
        CopyLoopAddsReferences(src, i + 1, dest, store);
      case Some(id) =>
        ShareStep(store, id, src.slots, i);
        CopyLoopAddsReferences(src, i + 1, Set(dest, i, id, true).ft, Share(store, id));
    }
  }

  /** One used slot of the copy loop: dest grows to mirror src up to and including it. */
  lemma CopySetStep(src: FileTable, i: nat, dest: FileTable, id: nat)
    requires Wf(src) && Wf(dest) && i < |src.slots| && src.slots[i] == Some(id)
    requires dest.maxfd == HighestBelow(src.slots, i)
    requires dest.slots == src.slots[..dest.maxfd + 1]
    ensures var d := Set(dest, i, id, true);
            && d.status == Success
            && d.ft.maxfd == i == HighestBelow(src.slots, i + 1)
            && d.ft.slots == src.slots[..i + 1]
            && d.ft.openfds == dest.openfds + 1
  {
  }

  /** One used slot of the copy loop, for the references it adds. */
  lemma ShareStep(store: Store, id: nat, s: seq<Option<nat>>, i: nat)
    requires i < |s| && s[i] == Some(id)
    ensures forall k :: k in store ==>
              var t := Share(store, id);
              t[k].(refcount := t[k].refcount + Occ(s[i + 1..], k))
              == store[k].(refcount := store[k].refcount + Occ(s[i..], k))
  {
  }

  datatype CopyResult = CopyFailed | Panic | Copied(dest: FileTable, store: Store)

  /**
   filetable_copy: a new table with every used slot of src, each entry
   gaining one reference per slot. CopyFailed is an allocation failure
   (allocOk false); Panic is a failed KASSERT comparing maxfd and openfds.
   */
  function Copy(src: FileTable, store: Store, allocOk: bool): (r: CopyResult)
    requires Wf(src)
    ensures !allocOk ==> r == CopyFailed
    ensures allocOk ==> (r.Copied? <==> Consistent(src))
    ensures allocOk && !r.Copied? ==> r == Panic
    ensures r.Copied? ==>
              && r.dest == src
              && r.store.Keys == store.Keys
              && forall k :: k in store ==>
                   r.store[k] == store[k].(refcount := store[k].refcount + Occ(src.slots, k))
  {
    if !allocOk then CopyFailed
    else
      var s := CopyLoop(src, 0, FileTable([], -1, 0), store);
      assert src.slots[0..] == src.slots;
      CopyLoopMirrors(src, 0, FileTable([], -1, 0), store);
      CopyLoopCounts(src, 0, FileTable([], -1, 0), store);
      CopyLoopAddsReferences(src, 0, FileTable([], -1, 0), store);
      if src.maxfd == s.ft.maxfd && src.openfds == s.ft.openfds then Copied(s.ft, s.store) else Panic
  }

  /** Closing a used descriptor below the top makes a later copy of the table panic. */
  lemma RemoveBelowTopThenCopyPanics(ft: FileTable, store: Store, fd: int)
    requires Consistent(ft) && LiveAt(ft, store, fd) && 0 <= fd < ft.maxfd && ft.slots[fd].Some?
    ensures var r := Remove(ft, store, fd);
            Copy(r.ft, r.store, true) == Panic
  {
  }
}

=== FILE: lseek.dfy ===
/**
 sys_lseek: move the offset of the open-file entry a descriptor names.
 The offset lives in the entry, so every descriptor sharing the entry sees
 the move. The two vnode operations it calls (is-seekable and stat) are
 inputs here.
 */
module Lseek {
  import opened Types
  import opened FileTable

  const SEEK_SET: int := 0
  const SEEK_CUR: int := 1
  const SEEK_END: int := 2

  /** What the descriptor's vnode answers: whether it is seekable, and its size (None: stat fails). */
  datatype VnodeInfo = VnodeInfo(seekable: bool, size: Option<int>)

  /** The new offset, or an error code; the source returns both as one off_t. */
  datatype SeekRet = Offset(pos: int) | SeekError(errno: Errno)

  datatype LseekResult = LseekResult(store: Store, ret: SeekRet)

  /** The whence values sys_lseek knows. */
  predicate KnownWhence(whence: int) {
    whence == SEEK_SET || whence == SEEK_CUR || whence == SEEK_END
  }

  /** sys_lseek on descriptor fd of table ft, whose vnode answers vn. */
  function SysLseek(ft: FileTable, store: Store, fd: int, pos: int, whence: int, vn: VnodeInfo): (r: LseekResult)
    requires Wf(ft) && LiveAt(ft, store, fd)
    ensures r.ret.SeekError? ==> r.store == store
    ensures r.ret.Offset? <==>
              && Get(ft, fd).Some? && pos >= 0 && vn.seekable && KnownWhence(whence)
              && (whence == SEEK_END ==> vn.size.Some?)
    ensures fd < 0 ==> r.ret == SeekError(EBADF)
    ensures fd >= 0 && pos < 0 ==> r.ret == SeekError(EINVAL)
    ensures pos >= 0 && Get(ft, fd).None? ==> r.ret == SeekError(EBADF)
    ensures pos >= 0 && Get(ft, fd).Some? && !vn.seekable ==> r.ret == SeekError(ESPIPE)
    ensures pos >= 0 && Get(ft, fd).Some? && vn.seekable ==>
              && (!KnownWhence(whence) ==> r.ret == SeekError(EINVAL))
              && (whence == SEEK_END && vn.size.None? ==> r.ret == SeekError(EBADF))
    ensures r.ret.Offset? ==>
              var id := Get(ft, fd).value;
              && r.ret.pos == pos + (if whence == SEEK_SET then 0
                                     else if whence == SEEK_CUR then store[id].offset
                                     else vn.size.value)
              && r.store.Keys == store.Keys
              && r.store[id] == store[id].(offset := r.ret.pos)
              && forall k :: k in store && k != id ==> r.store[k] == store[k]
  {
    if fd < 0 then LseekResult(store, SeekError(EBADF))
    else if pos < 0 then LseekResult(store, SeekError(EINVAL))
    else match Get(ft, fd)
      case None => LseekResult(store, SeekError(EBADF))
      case Some(id) =>
        if !vn.seekable then LseekResult(store, SeekError(ESPIPE))
        else
          var cur := store[id].offset;
          if whence == SEEK_SET then Moved(store, id, pos)
          else if whence == SEEK_CUR then Moved(store, id, cur + pos)
          else if whence == SEEK_END then
            match vn.size
            case None => LseekResult(store, SeekError(EBADF))
            case Some(size) => Moved(store, id, size + pos)
          else LseekResult(store, SeekError(EINVAL))
  }

  /** The success path: the entry's offset becomes n, which is also the value returned. */
  function Moved(store: Store, id: nat, n: int): (r: LseekResult)
    requires id in store
    ensures r.ret == Offset(n) && r.store.Keys == store.Keys && r.store[id].offset == n
  {
    LseekResult(store[id := store[id].(offset := n)], Offset(n))
  }

  /** Seeking to a position and then asking for the current offset returns that position. */
  lemma SeekSetThenTell(ft: FileTable, store: Store, fd: int, pos: int, vn: VnodeInfo)
    requires Wf(ft) && LiveAt(ft, store, fd) && Get(ft, fd).Some? && vn.seekable && pos >= 0
    ensures var a := SysLseek(ft, store, fd, pos, SEEK_SET, vn);
            && a.ret == Offset(pos)
            && LiveAt(ft, a.store, fd)
            && SysLseek(ft, a.store, fd, 0, SEEK_CUR, vn) == a
  {
  }

  /** Two relative seeks add up to one. */
  lemma SeekCurComposes(ft: FileTable, store: Store, fd: int, p1: int, p2: int, vn: VnodeInfo)
    requires Wf(ft) && LiveAt(ft, store, fd) && p1 >= 0 && p2 >= 0
    ensures var a := SysLseek(ft, store, fd, p1, SEEK_CUR, vn);
            && LiveAt(ft, a.store, fd)
            && SysLseek(ft, a.store, fd, p2, SEEK_CUR, vn) == SysLseek(ft, store, fd, p1 + p2, SEEK_CUR, vn)
  {
  }

  /** With a non-negative offset and size, a successful seek never yields a negative offset. */
  lemma OffsetStaysNonNegative(ft: FileTable, store: Store, fd: int, pos: int, whence: int, vn: VnodeInfo)
    requires Wf(ft) && LiveAt(ft, store, fd)
    requires Get(ft, fd).Some? ==> store[Get(ft, fd).value].offset >= 0
    requires vn.size.Some? ==> vn.size.value >= 0
    ensures var r := SysLseek(ft, store, fd, pos, whence, vn);
            r.ret.Offset? ==> r.ret.pos >= 0 && r.store[Get(ft, fd).value].offset >= 0
  {
  }

  /** A descriptor sharing the entry (after dup2 or fork) sees the new offset. */
  lemma SharedEntrySeesSeek(ft: FileTable, store: Store, fd: int, other: int, pos: int, whence: int, vn: VnodeInfo)
    requires Wf(ft) && LiveAt(ft, store, fd) && Get(ft, other) == Get(ft, fd)
    ensures var r := SysLseek(ft, store, fd, pos, whence, vn);
            r.ret.Offset? ==> r.store[Get(ft, other).value].offset == r.ret.pos
  {
  }
}

=== FILE: proctable.dfy ===
/**
 The global process table: a fixed array of PID_MAX process pointers
 indexed by pid, with `maxpid` (the highest pid handed out) and `numprocs`
 (meant to count the processes in the table). Processes live in a store
 keyed by an abstract pointer; a slot holds the key.
 */
module ProcTable {
  import opened Types
  import opened Slots

  /** The valid pid range [PID_MIN, PID_MAX), as in OS/161's limits. */
  const PID_MIN: int := 2
  const PID_MAX: int := 32767

  datatype Proc = Proc(pid: int, name: string)

  /** Live processes, by pointer. */
  type Procs = map<nat, Proc>

  datatype ProcTable = ProcTable(procs: seq<Option<nat>>, maxpid: int, numprocs: int)

  /** The array has PID_MAX slots and maxpid indexes below its end. */
  predicate Wf(pt: ProcTable) {
    |pt.procs| == PID_MAX && pt.maxpid < PID_MAX
  }

  /** No slot above maxpid holds a pointer. */
  predicate ClearAbove(pt: ProcTable)
    requires Wf(pt)
  {
    forall j :: pt.maxpid < j < PID_MAX && 0 <= j ==> pt.procs[j].None?
  }

  /** numprocs counts the used slots. */
  predicate Counted(pt: ProcTable) {
    pt.numprocs == Count(pt.procs)
  }

  /** proctable_checkpid: the pid lies in the valid range. */
  function CheckPid(pid: int): (ok: bool)
    ensures ok <==> PID_MIN <= pid < PID_MAX
  {
    !(pid < PID_MIN || pid >= PID_MAX)
  }

  /** proctable_get: the slot's pointer, or NULL for a pid out of range. */
  function Get(pt: ProcTable, pid: int): (r: Option<nat>)
    requires Wf(pt)
    ensures r.Some? ==> PID_MIN <= pid < PID_MAX && pt.procs[pid] == r
    ensures PID_MIN <= pid < PID_MAX ==> r == pt.procs[pid]
  {
    if !CheckPid(pid) then None else pt.procs[pid]
  }

  datatype SetResult = SetResult(pt: ProcTable, status: Status)

  /** proctable_set: store the pointer at pid; the slot is overwritten and numprocs always goes up. */
  function Set(pt: ProcTable, pid: int, id: nat): (r: SetResult)
    requires Wf(pt)
    ensures Wf(r.pt)
    ensures r.status == Success <==> PID_MIN <= pid < PID_MAX
    ensures r.status != Success ==> r == SetResult(pt, Failure(ESRCH))
    ensures r.status == Success ==>
              && Get(r.pt, pid) == Some(id)
              && (forall j :: 0 <= j < PID_MAX && j != pid ==> r.pt.procs[j] == pt.procs[j])
              && r.pt.maxpid == (if pid > pt.maxpid then pid else pt.maxpid)
              && r.pt.numprocs == pt.numprocs + 1
  {
    if pid < PID_MIN || pid >= PID_MAX then SetResult(pt, Failure(ESRCH))
    else
      var m := if pid > pt.maxpid then pid else pt.maxpid;
      SetResult(ProcTable(pt.procs[pid := Some(id)], m, pt.numprocs + 1), Success)
  }

  /** Setting an empty pid keeps numprocs counting the table and nothing above maxpid. */
  lemma SetEmptyKeepsCounted(pt: ProcTable, pid: int, id: nat)
    requires Wf(pt) && Counted(pt) && ClearAbove(pt) && Get(pt, pid).None?
    ensures var r := Set(pt, pid, id);
            r.status == Success ==> Counted(r.pt) && ClearAbove(r.pt)
  {
    if PID_MIN <= pid < PID_MAX {
      CountUpdate(pt.procs, pid, Some(id));
    }
  }

  datatype RemoveResult = RemoveResult(pt: ProcTable, store: Procs, status: Status)

  /**
   proctable_remove: destroy the process in the slot. The slot itself is
   never cleared; removing the top pid lowers maxpid to the highest used
   slot below it, and leaves it alone when there is none.
   */
  function Remove(pt: ProcTable, store: Procs, pid: int): (r: RemoveResult)
    requires Wf(pt)
    ensures Wf(r.pt)
    ensures r.status == Failure(ESRCH) <==> !(PID_MIN <= pid < PID_MAX)
    ensures r.status == Failure(ESRCH) || r.status == Success
    ensures Get(pt, pid).None? ==> r.pt == pt && r.store == store
    ensures Get(pt, pid).Some? ==>
              && r.pt.procs == pt.procs
              && r.store.Keys == store.Keys - {pt.procs[pid].value}
              && (forall k :: k in r.store ==> r.store[k] == store[k])
              && r.pt.numprocs == pt.numprocs - 1
              && (pid != pt.maxpid ==> r.pt.maxpid == pt.maxpid)
              && (pid == pt.maxpid ==>
                    && 0 <= r.pt.maxpid <= pid
                    && (r.pt.maxpid < pid ==> pt.procs[r.pt.maxpid].Some?)
                    && ((exists j :: 0 <= j < pid && pt.procs[j].Some?) ==> r.pt.maxpid < pid)
                    && forall j :: r.pt.maxpid < j < pid && 0 <= j ==> pt.procs[j].None?)
  {
    if !CheckPid(pid) then RemoveResult(pt, store, Failure(ESRCH))
    else match pt.procs[pid]
      case None => RemoveResult(pt, store, Success)
      case Some(id) =>
        var st := store - {id};
        var i := HighestBelow(pt.procs, pid);
        var m := if pid == pt.maxpid && i >= 0 then i else pt.maxpid;
        RemoveResult(ProcTable(pt.procs, m, pt.numprocs - 1), st, Success)
  }

  /**
   After a removal the slot still points at the destroyed process: get
   returns a pointer that is no longer live, and numprocs falls one below
   the used-slot count.
   */
  lemma RemoveLeavesDanglingSlot(pt: ProcTable, store: Procs, pid: int)
    requires Wf(pt) && Counted(pt) && Get(pt, pid).Some?
    ensures var r := Remove(pt, store, pid);
            && Get(r.pt, pid) == Get(pt, pid)
            && Get(pt, pid).value !in r.store
            && r.pt.numprocs == Count(r.pt.procs) - 1
  {
  }

  /**
   Removing the same pid twice counts the process out twice: the second call
   finds the slot still holding the process the first call destroyed, and
   destroys it again.
   */
  lemma RemoveTwiceDoubleCounts(pt: ProcTable, store: Procs, pid: int)
    requires Wf(pt) && Get(pt, pid).Some?
    ensures var r1 := Remove(pt, store, pid);
            var r2 := Remove(r1.pt, r1.store, pid);
            && Get(r1.pt, pid) == Get(pt, pid)
            && Get(pt, pid).value !in r1.store
            && r2.status == Success && r2.pt.numprocs == pt.numprocs - 2
            && r2.store == r1.store
  {
  }

  datatype AddResult = AddResult(pt: ProcTable, store: Procs, status: Status)

  /**
   proctable_add: put the process in the first NULL slot in [1, maxpid),
   or else in the slot after maxpid, and write the chosen pid into it.
   When maxpid is below 1 the scan never starts and the process gets pid 1
   without being stored.
   */
  function Add(pt: ProcTable, store: Procs, id: nat): (r: AddResult)
    requires Wf(pt) && id in store
    ensures Wf(r.pt)
    ensures r.status == Success || r.status == Failure(ENPROC)
    ensures r.status == Failure(ENPROC) <==>
              pt.maxpid == PID_MAX - 1 && forall j :: 1 <= j < pt.maxpid ==> pt.procs[j].Some?
    ensures r.status != Success ==> r == AddResult(pt, store, r.status)
    ensures r.store.Keys == store.Keys
    ensures r.status == Success ==>
              var p := r.store[id].pid;
              && r.store[id] == store[id].(pid := p)
              && (forall k :: k in store && k != id ==> r.store[k] == store[k])
              && r.pt.numprocs == pt.numprocs + 1
              && (pt.maxpid < 1 ==> p == 1 && r.pt.maxpid == 1 && r.pt.procs == pt.procs)
              && (pt.maxpid >= 1 ==>
                    && 1 <= p <= pt.maxpid + 1 && p != pt.maxpid
                    && (p < pt.maxpid ==> pt.procs[p].None?)
                    && (forall j :: 1 <= j < p && j < pt.maxpid ==> pt.procs[j].Some?)
                    && r.pt.procs[p] == Some(id)
                    && (forall j :: 0 <= j < PID_MAX && j != p ==> r.pt.procs[j] == pt.procs[j])
                    && r.pt.maxpid == (if p > pt.maxpid then p else pt.maxpid))
  {
    var i := FirstHole(pt.procs, 1, pt.maxpid);
    if i < pt.maxpid then
      AddResult(ProcTable(pt.procs[i := Some(id)], pt.maxpid, pt.numprocs + 1), store[id := store[id].(pid := i)], Success)
    else if i == pt.maxpid then
      if i == PID_MAX - 1 then AddResult(pt, store, Failure(ENPROC))
      else
        AddResult(ProcTable(pt.procs[i + 1 := Some(id)], i + 1, pt.numprocs + 1),
                  store[id := store[id].(pid := i + 1)], Success)
    else
      AddResult(ProcTable(pt.procs, i, pt.numprocs + 1), store[id := store[id].(pid := i)], Success)
  }

  /**
   With numprocs counting the table and nothing stored above maxpid, a
   successful add (from maxpid 1 on) stores the process in an empty slot
   and keeps both properties.
   */
  lemma AddKeepsCounted(pt: ProcTable, store: Procs, id: nat)
    requires Wf(pt) && id in store && Counted(pt) && ClearAbove(pt) && pt.maxpid >= 1
    ensures var r := Add(pt, store, id);
            r.status == Success ==>
              && pt.procs[r.store[id].pid].None?
              && Counted(r.pt) && ClearAbove(r.pt)
  {
    var r := Add(pt, store, id);
    if r.status == Success {
      var p := r.store[id].pid;
      assert r.pt.procs == pt.procs[p := Some(id)];
      CountUpdate(pt.procs, p, Some(id));
    }
  }

  /**
   When slot 1 is free below maxpid, add hands out pid 1, which lies
   below PID_MIN: get refuses it although the slot holds the process.
   */
  lemma AddCanHandOutPidOne(pt: ProcTable, store: Procs, id: nat)
    requires Wf(pt) && id in store && pt.maxpid >= 2 && pt.procs[1].None?
    ensures var r := Add(pt, store, id);
            && r.status == Success
            && r.store[id].pid == 1
            && r.pt.procs[1] == Some(id)
            && Get(r.pt, 1).None?
  {
  }

  /** In a table whose maxpid is below 1, the added process gets pid 1 but no slot holds it. */
  lemma AddToEmptyTableLosesProcess(pt: ProcTable, store: Procs, id: nat)
    requires Wf(pt) && id in store && pt.maxpid < 1
    requires forall j :: 0 <= j < PID_MAX ==> pt.procs[j] != Some(id)
    ensures var r := Add(pt, store, id);
            && r.status == Success
            && r.store[id].pid == 1
            && forall pid :: Get(r.pt, pid) != Some(id)
  {
  }

  /** A process stored by add at a valid pid is found again by get, and removing it destroys it. */
  lemma AddThenGetThenRemove(pt: ProcTable, store: Procs, id: nat)
    requires Wf(pt) && id in store && pt.maxpid >= 1
    ensures var a := Add(pt, store, id);
            var p := a.store[id].pid;
            a.status == Success && p >= PID_MIN ==>
              && Get(a.pt, p) == Some(id)
              && var r := Remove(a.pt, a.store, p);
              && r.status == Success && id !in r.store && r.pt.numprocs == pt.numprocs
  {
  }
}

=== FILE: sbrk.dfy ===
/**
 sys_sbrk: moving the heap break. The new break is checked against the heap
 start and the heap bound; a shrink releases the frames of the heap pages
 whose start address lies in the vacated range, marks them freed, and
 invalidates the whole TLB. The frame release itself (coremap_free_kpages)
 is not part of this model: the physical addresses handed to it are
 returned in order instead.
 */
module Sbrk {
  import opened Types
  import opened Tlb
  import opened AddrSpace

  /** intptr_t bounds. */
  const INTPTR_MIN: int := -0x8000_0000
  const INTPTR_MAX: int := 0x7fff_ffff

  /** What sys_sbrk reports: the old break (return 0), or an error in *retval (return -1). */
  datatype Ret = OldBreak(brk: nat) | Error(errno: Errno)

  /** The state after sys_sbrk, the addresses given back to the frame table, and the report. */
  datatype SbrkResult = SbrkResult(space: Option<AddrSpace>, tlb: seq<TlbEntry>, released: seq<nat>, ret: Ret)

  /** The heap array after the release loop, and the frames released, in slot order. */
  datatype Release = Release(heap: seq<Option<PageRec>>, released: seq<nat>)

  /** A live heap page whose start address lies in [lo, hi). */
  predicate InVacated(p: Option<PageRec>, lo: nat, hi: nat) {
    p.Some? && !p.value.freed && lo <= p.value.startaddr < hi
  }

  /** Every live heap page lies below the break (heap pages at or above it are freed). */
  predicate HeapBelowBreak(space: AddrSpace) {
    forall j :: 0 <= j < |space.heap| && space.heap[j].Some? && space.heap[j].value.startaddr >= space.heapBrk ==>
      space.heap[j].value.freed
  }

  /** The heap slots from i on that hold a live page starting in [lo, hi). */
  function VacatedSlots(heap: seq<Option<PageRec>>, lo: nat, hi: nat, i: nat): set<int> {
    set j | i <= j < |heap| && InVacated(heap[j], lo, hi)
  }

  /** Splitting off slot i: it is counted on its own, and a change to it does not affect the slots after it. */
  lemma VacatedSlotsStep(heap: seq<Option<PageRec>>, heap': seq<Option<PageRec>>, lo: nat, hi: nat, i: nat)
    requires i < |heap| == |heap'|
    requires forall j :: i < j < |heap| ==> heap'[j] == heap[j]
    ensures |VacatedSlots(heap, lo, hi, i)| ==
              |VacatedSlots(heap', lo, hi, i + 1)| + (if InVacated(heap[i], lo, hi) then 1 else 0)
  {
    var rest := VacatedSlots(heap', lo, hi, i + 1);
    assert rest == VacatedSlots(heap, lo, hi, i + 1);
    if InVacated(heap[i], lo, hi) {
      assert VacatedSlots(heap, lo, hi, i) == rest + {i};
    } else {
      assert VacatedSlots(heap, lo, hi, i) == rest;
    }
  }

  /** The release loop of sys_sbrk from heap slot i on. */
  function ReleaseFrom(heap: seq<Option<PageRec>>, lo: nat, hi: nat, i: nat): (r: Release)
    requires i <= |heap|
    decreases |heap| - i
    ensures |r.heap| == |heap|
    ensures forall j :: 0 <= j < i ==> r.heap[j] == heap[j]
    ensures forall j :: i <= j < |heap| ==>
              r.heap[j] == (if InVacated(heap[j], lo, hi) then Some(heap[j].value.(freed := true)) else heap[j])
    ensures forall x :: x in r.released <==>
              exists j :: i <= j < |heap| && InVacated(heap[j], lo, hi) && heap[j].value.paddr == x
    ensures (forall j :: i <= j < |heap| ==> !InVacated(heap[j], lo, hi)) ==> r == Release(heap, [])
    // one release per vacated slot
    ensures |r.released| == |VacatedSlots(heap, lo, hi, i)|
  {
    if i == |heap| then
      assert VacatedSlots(heap, lo, hi, i) == {};
      Release(heap, [])
    else if InVacated(heap[i], lo, hi) then
      var heap' := heap[i := Some(heap[i].value.(freed := true))];
      var rest := ReleaseFrom(heap', lo, hi, i + 1);
      VacatedSlotsStep(heap, heap', lo, hi, i);
      Release(rest.heap, [heap[i].value.paddr] + rest.released)
    else
      VacatedSlotsStep(heap, heap, lo, hi, i);
      ReleaseFrom(heap, lo, hi, i + 1)
  }

  /** The inputs sys_sbrk can be given: an intptr_t amount, 32-bit heap bookkeeping, a full TLB. */
  predicate CanSbrk(space: Option<AddrSpace>, amount: int, tlb: seq<TlbEntry>) {
    && INTPTR_MIN <= amount <= INTPTR_MAX
    && |tlb| == NUM_TLB
    && (space.Some? ==> space.value.heapBrk < ADDR_LIMIT)
  }

  /** The break sys_sbrk would move to: the old break plus amount, in a 32-bit word. */
  function NewBreak(space: AddrSpace, amount: int): nat {
    Wrap32(space.heapBrk + amount)
  }

  /** sys_sbrk. C's truncating remainder of amount by PAGE_SIZE is zero exactly when the Euclidean one is. */
  function SysSbrk(space: Option<AddrSpace>, amount: int, tlb: seq<TlbEntry>): (r: SbrkResult)
    requires CanSbrk(space, amount, tlb)
    ensures amount % PAGE_SIZE != 0 ==> r == SbrkResult(space, tlb, [], Error(EINVAL))
    ensures amount % PAGE_SIZE == 0 && space.None? ==> r == SbrkResult(space, tlb, [], Error(ENOMEM))
    ensures amount % PAGE_SIZE == 0 && space.Some? && space.value.heapBrk == 0 ==>
              r == SbrkResult(space, tlb, [], Error(ENOMEM))
    ensures r.ret.OldBreak? <==>
              && amount % PAGE_SIZE == 0 && space.Some? && space.value.heapBrk != 0
              && space.value.heapStart <= NewBreak(space.value, amount) < space.value.heapMax
    ensures r.ret.Error? ==> r.space == space && r.tlb == tlb && r.released == []
    ensures r.ret.Error? && amount % PAGE_SIZE == 0 && space.Some? && space.value.heapBrk != 0 ==>
              var b := NewBreak(space.value, amount);
              && (b < space.value.heapStart ==> r.ret == Error(EINVAL))
              && (space.value.heapStart <= b ==> r.ret == Error(if amount < 0 then EINVAL else ENOMEM))
    ensures r.ret.OldBreak? ==>
              var prev := space.value;
              var b := NewBreak(prev, amount);
              && r.ret.brk == prev.heapBrk
              && r.space.Some?
              && r.space.value.heapBrk == b
              && prev.heapStart <= r.space.value.heapBrk < prev.heapMax
              && (0 <= prev.heapBrk + amount < ADDR_LIMIT ==> r.space.value.heapBrk == prev.heapBrk + amount)
              && r.space.value.regions == prev.regions
              && r.space.value.heapStart == prev.heapStart && r.space.value.heapMax == prev.heapMax
              && (b >= prev.heapBrk ==> r.space.value.heap == prev.heap && r.released == [] && r.tlb == tlb)
              && (b < prev.heapBrk ==>
                    && |r.space.value.heap| == |prev.heap|
                    && (forall j :: 0 <= j < |prev.heap| ==>
                          r.space.value.heap[j] == (if InVacated(prev.heap[j], b, prev.heapBrk)
                                                    then Some(prev.heap[j].value.(freed := true))
                                                    else prev.heap[j]))
                    && (forall x :: x in r.released <==>
                          exists j :: 0 <= j < |prev.heap| && InVacated(prev.heap[j], b, prev.heapBrk)
                                      && prev.heap[j].value.paddr == x)
                    && |r.released| == |VacatedSlots(prev.heap, b, prev.heapBrk, 0)|
                    && r.tlb == FlushAll(NUM_TLB))
  {
    if amount % PAGE_SIZE != 0 then SbrkResult(space, tlb, [], Error(EINVAL))
    else if space.None? then SbrkResult(space, tlb, [], Error(ENOMEM))
    else
      var prev := space.value;
      if prev.heapBrk == 0 then SbrkResult(space, tlb, [], Error(ENOMEM))
      else
        var b := NewBreak(prev, amount);
        if b < prev.heapStart then SbrkResult(space, tlb, [], Error(EINVAL))
        else if b >= prev.heapMax then SbrkResult(space, tlb, [], Error(if amount < 0 then EINVAL else ENOMEM))
        else if b < prev.heapBrk then
          var rel := ReleaseFrom(prev.heap, b, prev.heapBrk, 0);
          SbrkResult(Some(prev.(heap := rel.heap, heapBrk := b)), FlushAll(NUM_TLB), rel.released, OldBreak(prev.heapBrk))
        else SbrkResult(Some(prev.(heapBrk := b)), tlb, [], OldBreak(prev.heapBrk))
  }

  /** Without wrap-around, growing (or keeping) the break never releases a page. */
  lemma GrowReleasesNothing(space: AddrSpace, amount: int, tlb: seq<TlbEntry>)
    requires CanSbrk(Some(space), amount, tlb) && amount >= 0
    requires space.heapBrk + amount < ADDR_LIMIT
    ensures var r := SysSbrk(Some(space), amount, tlb);
            r.released == [] && r.tlb == tlb && r.space.value.heap == space.heap
  {
  }

  /**
   With a heap bound of 0, the value as_create leaves and nothing in the
   modelled kernel raises, every sys_sbrk fails and changes nothing.
   */
  lemma SbrkFailsWithoutHeapBound(space: AddrSpace, amount: int, tlb: seq<TlbEntry>)
    requires CanSbrk(Some(space), amount, tlb) && space.heapMax == 0
    ensures var r := SysSbrk(Some(space), amount, tlb);
            && r.ret.Error?
            && r.space == Some(space) && r.tlb == tlb && r.released == []
  {
  }

  /** A successful sys_sbrk keeps every live heap page below the break. */
  lemma SbrkKeepsHeapBelowBreak(space: AddrSpace, amount: int, tlb: seq<TlbEntry>)
    requires CanSbrk(Some(space), amount, tlb) && HeapBelowBreak(space)
    ensures var r := SysSbrk(Some(space), amount, tlb);
            r.ret.OldBreak? ==> HeapBelowBreak(r.space.value)
  {
  }

  /**
   Growing the heap by whole pages and shrinking it back by the same amount
   restores the address space exactly and releases nothing, when every live
   heap page lies below the break.
   */
  lemma GrowThenShrinkRestores(space: AddrSpace, k: nat, tlb: seq<TlbEntry>)
    requires CanSbrk(Some(space), k, tlb) && HeapBelowBreak(space)
    requires k % PAGE_SIZE == 0 && space.heapBrk != 0
    requires space.heapStart <= space.heapBrk && space.heapBrk + k < space.heapMax
    requires space.heapMax <= ADDR_LIMIT
    ensures var up := SysSbrk(Some(space), k, tlb);
            && up.ret == OldBreak(space.heapBrk)
            && var down := SysSbrk(up.space, -(k as int), up.tlb);
            && down.ret == OldBreak(space.heapBrk + k)
            && down.space == Some(space)
            && down.released == []
  {
  }
}

=== FILE: slots.dfy ===
/**
 Arrays of pointer slots, as used by the file table and the process table:
 a `Some` slot holds a pointer, a `None` slot is NULL. This module holds the
 two scans both tables perform (downwards for the highest used slot,
 upwards for the first NULL slot) and the slot counts their bookkeeping
 fields are meant to track.
 */
module Slots {
  import opened Types

  /** 1 for a used slot, 0 for a NULL one. */
  function Used<T>(v: Option<T>): nat {
    if v.Some? then 1 else 0
  }

  /** Number of used slots. */
  function Count<T>(s: seq<Option<T>>): (n: nat)
    ensures n <= |s|
    ensures n == 0 <==> forall j :: 0 <= j < |s| ==> s[j].None?
  {
    if |s| == 0 then 0 else Used(s[0]) + Count(s[1..])
  }

  /** Number of slots holding exactly x. */
  function Occ<T(==)>(s: seq<Option<T>>, x: T): (n: nat)
    ensures n <= |s|
    ensures n == 0 <==> forall j :: 0 <= j < |s| ==> s[j] != Some(x)
  {
    if |s| == 0 then 0 else (if s[0] == Some(x) then 1 else 0) + Occ(s[1..], x)
  }

  /** `n` NULL slots, what growing an array adds. */
  function Nulls<T>(n: nat): (s: seq<Option<T>>)
    ensures |s| == n
    ensures forall j :: 0 <= j < n ==> s[j].None?
  {
    seq(n, j => None)
  }

  /**
   The downward scan from k - 1 that stops at the first used slot:
   the highest used slot below k, or -1 if there is none.
   */
  function HighestBelow<T>(s: seq<Option<T>>, k: int): (j: int)
    requires k <= |s|
    decreases k
    ensures j == -1 || (0 <= j < k && s[j].Some?)
    ensures forall i :: j < i < k && 0 <= i ==> s[i].None?
  {
    if k <= 0 then -1
    else if s[k - 1].Some? then k - 1
    else HighestBelow(s, k - 1)
  }

  /**
   The upward scan from i that stops at the first NULL slot below hi: the
   first NULL slot in [i, hi), or hi if there is none; a start at or past
   hi is returned unchanged.
   */
  function FirstHole<T>(s: seq<Option<T>>, i: nat, hi: int): (k: nat)
    requires hi <= |s|
    decreases hi - i
    ensures hi <= i ==> k == i
    ensures i < hi ==> i <= k <= hi && (k < hi ==> s[k].None?)
    ensures forall j :: i <= j < k && j < hi ==> s[j].Some?
  {
    if hi <= i then i
    else if s[i].None? then i
    else FirstHole(s, i + 1, hi)
  }

  /** Counting distributes over concatenation. */
  lemma {:induction false} CountConcat<T>(a: seq<Option<T>>, b: seq<Option<T>>)
    ensures Count(a + b) == Count(a) + Count(b)
  {
    if |a| > 0 {
      assert (a + b)[1..] == a[1..] + b;
      CountConcat(a[1..], b);
    } else {
      assert a + b == b;
    }
  }

  /** Replacing one slot changes the count by the difference of the two slots. */
  lemma CountUpdate<T>(s: seq<Option<T>>, i: nat, v: Option<T>)
    requires i < |s|
    ensures Count(s[i := v]) + Used(s[i]) == Count(s) + Used(v)
  {
    assert s == s[..i] + [s[i]] + s[i + 1..];
    assert s[i := v] == s[..i] + [v] + s[i + 1..];
    CountConcat(s[..i] + [s[i]], s[i + 1..]);
    CountConcat(s[..i], [s[i]]);
    CountConcat(s[..i] + [v], s[i + 1..]);
    CountConcat(s[..i], [v]);
  }

  /** Dropping or appending NULL slots does not change the count. */
  lemma CountNullTail<T>(s: seq<Option<T>>, k: nat)
    requires k <= |s|
    requires forall j :: k <= j < |s| ==> s[j].None?
    ensures Count(s[..k]) == Count(s)
  {
    assert s == s[..k] + s[k..];
    CountConcat(s[..k], s[k..]);
  }

  /** Counting distributes over concatenation, per value. */
  lemma {:induction false} OccConcat<T>(a: seq<Option<T>>, b: seq<Option<T>>, x: T)
    ensures Occ(a + b, x) == Occ(a, x) + Occ(b, x)
  {
    if |a| > 0 {
      assert (a + b)[1..] == a[1..] + b;
      OccConcat(a[1..], b, x);
    } else {
      assert a + b == b;
    }
  }
}

=== FILE: tlb.dfy ===
/**
 The software view of the MIPS translation lookaside buffer: a fixed array
 of (entryhi, entrylo) slots. Reading and writing a slot are plain sequence
 operations here; the hardware instructions are not modelled.
 */
module Tlb {
  import opened Types

  /** Number of TLB slots on the target. */
  const NUM_TLB: nat := 64

  /**
   entrylo, kept as its fields rather than packed bits: the frame number
   (the physical address over PAGE_SIZE) and the dirty and valid bits.
   */
  datatype EntryLo = EntryLo(frame: nat, dirty: bool, valid: bool)

  datatype TlbEntry = TlbEntry(hi: nat, lo: EntryLo)

  /** `elo & TLBLO_VALID`. */
  predicate IsValid(e: TlbEntry) {
    e.lo.valid
  }

  /** TLBHI_INVALID(i) / TLBLO_INVALID(): a distinct unmapped kernel address, nothing valid. */
  function InvalidEntry(i: nat): (e: TlbEntry)
    ensures !IsValid(e)
  {
    TlbEntry(MIPS_KSEG0 + i * PAGE_SIZE, EntryLo(0, false, false))
  }

  /** `paddr | TLBLO_DIRTY | TLBLO_VALID` for a page-aligned paddr: the page mapped to its frame, dirty and valid. */
  function MappingEntry(vpage: nat, paddr: nat): (e: TlbEntry)
    requires paddr % PAGE_SIZE == 0
    ensures IsValid(e) && e.lo.dirty
    ensures e.hi == vpage
    ensures e.lo.frame * PAGE_SIZE == paddr
  {
    TlbEntry(vpage, EntryLo(paddr / PAGE_SIZE, true, true))
  }

  /** The least slot index at or after i that holds no valid entry, or |tlb| if every one does. */
  function FirstInvalid(tlb: seq<TlbEntry>, i: nat): (k: nat)
    requires i <= |tlb|
    decreases |tlb| - i
    ensures i <= k <= |tlb|
    ensures k < |tlb| ==> !IsValid(tlb[k])
    ensures forall j :: i <= j < k ==> IsValid(tlb[j])
  {
    if i == |tlb| then i
    else if !IsValid(tlb[i]) then i
    else FirstInvalid(tlb, i + 1)
  }

  /** The flush loop: every slot invalidated. */
  function FlushAll(n: nat): (tlb: seq<TlbEntry>)
    ensures |tlb| == n
    ensures forall j :: 0 <= j < n ==> tlb[j] == InvalidEntry(j)
  {
    seq(n, j requires 0 <= j < n => InvalidEntry(j))
  }

  /**
   The `add_to_tlb` loop of vm_fault: write the entry into the first slot
   whose entry is not valid; if every slot is valid, invalidate them all and
   retry, which then picks slot 0.
   */
  function Install(tlb: seq<TlbEntry>, e: TlbEntry): (r: seq<TlbEntry>)
    requires |tlb| > 0
    ensures |r| == |tlb|
    ensures (exists k :: 0 <= k < |tlb| && !IsValid(tlb[k])) ==>
              exists k :: 0 <= k < |tlb| && !IsValid(tlb[k])
                && (forall j :: 0 <= j < k ==> IsValid(tlb[j]))
                && r == tlb[k := e]
    ensures (forall k :: 0 <= k < |tlb| ==> IsValid(tlb[k])) ==>
              r[0] == e && forall j :: 1 <= j < |tlb| ==> r[j] == InvalidEntry(j)
  {
    var k := FirstInvalid(tlb, 0);
    if k < |tlb| then tlb[k := e]
    else FlushAll(|tlb|)[0 := e]
  }

  /** After an install the new entry is present and valid, whatever the TLB held. */
  lemma InstallMapsPage(tlb: seq<TlbEntry>, vpage: nat, paddr: nat)
    requires |tlb| > 0 && paddr % PAGE_SIZE == 0
    ensures var r := Install(tlb, MappingEntry(vpage, paddr));
            exists k :: 0 <= k < |r| && r[k].hi == vpage && IsValid(r[k]) && r[k].lo.frame * PAGE_SIZE == paddr
  {
    var r := Install(tlb, MappingEntry(vpage, paddr));
    var k := FirstInvalid(tlb, 0);
    if k < |tlb| {
      assert r[k] == MappingEntry(vpage, paddr);
    } else {
      assert r[0] == MappingEntry(vpage, paddr);
    }
  }
}

=== FILE: types.dfy ===
/**
 Shared vocabulary of the model: machine constants of the MIPS/OS161 target,
 the kernel error numbers the modelled code returns, a small Option type, and
 the page record that frames, region slots and heap slots refer to.
 */
module Types {

  /** Size of one page and one physical frame. */
  const PAGE_SIZE: nat := 4096

  /** Addresses (vaddr_t, paddr_t) are 32-bit unsigned words. */
  const ADDR_LIMIT: nat := 0x1_0000_0000

  /** Base of the direct-mapped kernel segment; PADDR_TO_KVADDR adds it. */
  const MIPS_KSEG0: nat := 0x8000_0000

  /** Top of the user stack (USERSTACK equals MIPS_KSEG0 on this target). */
  const USERSTACK: nat := 0x8000_0000

  datatype Option<T> = None | Some(value: T)

  /** The error numbers the modelled code can return. */
  datatype Errno = EFAULT | EINVAL | ENOMEM | EBADF | EMFILE | ENOSPC | ESRCH | ENPROC | ESPIPE

  /** The C convention "0 on success, an errno otherwise". */
  datatype Status = Success | Failure(errno: Errno)

  /**
   A page record: the physical address of the frame backing a page, the
   virtual page it stands for, and whether it has been released.
   */
  datatype PageRec = PageRec(paddr: nat, startaddr: nat, freed: bool)

  /** `a & PAGE_FRAME`: the base of the page that holds `a`. */
  function PageBase(a: nat): (b: nat)
    ensures b % PAGE_SIZE == 0
    ensures b <= a < b + PAGE_SIZE
  {
    a - a % PAGE_SIZE
  }

  /** A sum computed in a 32-bit unsigned word. */
  function Wrap32(x: int): (w: nat)
    ensures w < ADDR_LIMIT
    ensures 0 <= x < ADDR_LIMIT ==> w == x
    ensures ADDR_LIMIT <= x < 2 * ADDR_LIMIT ==> w == x - ADDR_LIMIT
    ensures 0 <= x ==> w <= x
    ensures (w - x) % ADDR_LIMIT == 0
  {
    x % ADDR_LIMIT
  }
}

=== FILE: vm.dfy ===
/**
 The page-fault handler and the kernel page allocator entry points.

 vm_fault is a small state machine: page-align the faulting address, find
 the first region that contains it, allocate and zero a frame if the page
 slot is empty, authorise by fault kind, and install the translation in the
 TLB. The zero-fill of the new frame and the interrupt masking around the
 TLB update have no counterpart here.
 */
module Vm {
  import opened Types
  import opened Coremap
  import opened Tlb
  import opened AddrSpace

  /** Fault kinds passed by the trap code. */
  const VM_FAULT_READ: int := 0
  const VM_FAULT_WRITE: int := 1
  const VM_FAULT_READONLY: int := 2

  /** Everything a fault can change, and the value it returns. */
  datatype FaultResult = FaultResult(space: Option<AddrSpace>, cm: Coremap, tlb: seq<TlbEntry>, status: Status)

  /** The frame table and region slot array after demand allocation. */
  datatype Resolved = Resolved(cm: Coremap, slots: seq<Slot>)

  /** The address space and frame table after the lookup side of a fault, and the physical address of the page's frame. */
  datatype Bound = Bound(space: AddrSpace, cm: Coremap, paddr: nat)

  /** The outcome of alloc_kpages: the table, the physical address the allocator gave, and the kernel address returned. */
  datatype KAlloc = KAlloc(cm: Coremap, paddr: nat, vaddr: nat)

  /** The permission word's write bit (`perm & 2`). */
  predicate Writable(perm: nat) {
    (perm / 2) % 2 == 1
  }

  /** The least index at or after i of a region that contains a, or -1. */
  function FindRegion(regions: seq<Region>, a: nat, i: nat): (k: int)
    requires i <= |regions|
    decreases |regions| - i
    ensures k == -1 <==> forall j :: i <= j < |regions| ==> !Contains(regions[j], a)
    ensures k != -1 ==> i <= k < |regions| && Contains(regions[k], a)
                        && forall j :: i <= j < k ==> !Contains(regions[j], a)
  {
    if i == |regions| then -1
    else if Contains(regions[i], a) then i
    else FindRegion(regions, a, i + 1)
  }

  /** The page index of address a inside a region that contains it. */
  function PageIndex(r: Region, a: nat): (p: nat)
    requires Contains(r, a)
    ensures p < r.npages
    ensures r.start + p * PAGE_SIZE <= a < r.start + (p + 1) * PAGE_SIZE
  {
    (a - r.start) / PAGE_SIZE
  }

  /**
   The fault-kind switch: READONLY is refused (EFAULT) unless the region's
   write bit is set; READ and WRITE are accepted; anything else is EINVAL.
   */
  function Authorize(kind: int, perm: nat): (s: Status)
    ensures kind == VM_FAULT_READ || kind == VM_FAULT_WRITE ==> s == Success
    ensures kind == VM_FAULT_READONLY ==> (s == Success <==> Writable(perm))
    ensures kind == VM_FAULT_READONLY && !Writable(perm) ==> s == Failure(EFAULT)
    ensures kind != VM_FAULT_READ && kind != VM_FAULT_WRITE && kind != VM_FAULT_READONLY ==> s == Failure(EINVAL)
  {
    if kind == VM_FAULT_READONLY then (if (perm / 2) % 2 == 0 then Failure(EFAULT) else Success)
    else if kind == VM_FAULT_READ then Success
    else if kind == VM_FAULT_WRITE then Success
    else Failure(EINVAL)
  }

  /**
   Demand allocation: an empty slot gets a freshly allocated frame (the
   slot records coremap[paddr / PAGE_SIZE]); an occupied slot is reused.
   When no frame below the scan limit is free, the slot is bound to the
   frame where the allocator's scan stopped, which stays unallocated.
   */
  function Resolve(cm: Coremap, slots: seq<Slot>, pageno: nat): (r: Resolved)
    requires pageno < |slots|
    requires FramesNumbered(cm.frames)
    requires slots[pageno].None? ==> CanAllocPage(cm)
    ensures |r.slots| == |slots| && r.slots[pageno].Some?
    ensures forall j :: 0 <= j < |slots| && j != pageno ==> r.slots[j] == slots[j]
    ensures slots[pageno].Some? ==> r == Resolved(cm, slots)
    ensures slots[pageno].None? && HasFreeFrom(cm.frames, cm.firstFree) ==>
              var k := r.slots[pageno].value;
              && IsFirstFree(cm.frames, cm.firstFree, k)
              && r.cm == Coremap(cm.frames[k := cm.frames[k].(isAllocated := true)], cm.firstFree)
    ensures slots[pageno].None? && !HasFreeFrom(cm.frames, cm.firstFree) ==>
              r.cm == cm && r.slots[pageno].value == PageScanStop(cm.firstFree) < |cm.frames|
  {
    if slots[pageno].Some? then Resolved(cm, slots)
    else
      var a := AllocPage(cm);
      Resolved(a.cm, slots[pageno := Some(a.paddr / PAGE_SIZE)])
  }

  /** What a fault in region k of space needs: the page's slot array exists and an empty slot can be filled. */
  predicate CanFaultIn(a: nat, space: AddrSpace, k: nat, cm: Coremap, tlb: seq<TlbEntry>) {
    && |tlb| == NUM_TLB
    && FramesNumbered(cm.frames)
    && k < |space.regions| && Contains(space.regions[k], a) && Ready(space.regions[k])
    && var slot := space.regions[k].pages.value[PageIndex(space.regions[k], a)];
    && (slot.None? ==> CanAllocPage(cm))
    && (slot.Some? ==> slot.value < |cm.frames|)
  }

  /** Region k gets the slot array `slots`; the rest of the address space is unchanged. */
  function WithSlots(space: AddrSpace, k: nat, slots: seq<Slot>): (s: AddrSpace)
    requires k < |space.regions|
    ensures s == space.(regions := s.regions)
    ensures |s.regions| == |space.regions| && s.regions[k] == space.regions[k].(pages := Some(slots))
    ensures forall j :: 0 <= j < |space.regions| && j != k ==> s.regions[j] == space.regions[j]
  {
    space.(regions := space.regions[k := space.regions[k].(pages := Some(slots))])
  }

  /** Frame f gets its referenced flag set; every other frame is unchanged. */
  function Reference(cm: Coremap, f: nat): (c: Coremap)
    requires f < |cm.frames|
    ensures c.firstFree == cm.firstFree && |c.frames| == |cm.frames|
    ensures c.frames[f] == cm.frames[f].(referenced := true)
    ensures forall j :: 0 <= j < |cm.frames| && j != f ==> c.frames[j] == cm.frames[j]
  {
    cm.(frames := cm.frames[f := cm.frames[f].(referenced := true)])
  }

  /**
   The lookup side of vm_fault once region k holds the page-aligned address
   a: demand allocation fills the page's slot, the frame it names is marked
   referenced, and the frame's physical address is read back.
   */
  function BindPage(a: nat, space: AddrSpace, k: nat, cm: Coremap, tlb: seq<TlbEntry>): (b: Bound)
    requires CanFaultIn(a, space, k, cm, tlb) && a % PAGE_SIZE == 0
    ensures var regions := space.regions;
            var pageno := (a - regions[k].start) / PAGE_SIZE;
            var slot := regions[k].pages.value[pageno];
            && b.space == space.(regions := b.space.regions)
            && |b.space.regions| == |regions|
            && (forall j :: 0 <= j < |regions| && j != k ==> b.space.regions[j] == regions[j])
            && SameShape(regions[k], b.space.regions[k])
            && Ready(b.space.regions[k])
            && var slots' := b.space.regions[k].pages.value;
            && slots'[pageno].Some?
            && (forall j :: 0 <= j < |slots'| && j != pageno ==> slots'[j] == regions[k].pages.value[j])
            && var frame := slots'[pageno].value;
            && frame < |cm.frames|
            && b.paddr == frame * PAGE_SIZE
            && (slot.Some? ==> frame == slot.value)
            && (slot.None? && HasFreeFrom(cm.frames, cm.firstFree) ==> IsFirstFree(cm.frames, cm.firstFree, frame))
            && (slot.None? && !HasFreeFrom(cm.frames, cm.firstFree) ==> frame == PageScanStop(cm.firstFree))
            && b.cm.firstFree == cm.firstFree
            && |b.cm.frames| == |cm.frames|
            && (forall j :: 0 <= j < |cm.frames| && j != frame ==> b.cm.frames[j] == cm.frames[j])
            && (slot.None? && HasFreeFrom(cm.frames, cm.firstFree) ==>
                  b.cm.frames[frame] == cm.frames[frame].(isAllocated := true, referenced := true))
            && (slot.Some? || !HasFreeFrom(cm.frames, cm.firstFree) ==> b.cm.frames[frame] == cm.frames[frame].(referenced := true))
  {
    var reg := space.regions[k];
    var pageno := PageIndex(reg, a);
    var res := Resolve(cm, reg.pages.value, pageno);
    var paddr := res.cm.frames[res.slots[pageno].value].page.paddr;
    var f := paddr / PAGE_SIZE;
    assert f == res.slots[pageno].value;
    Bound(WithSlots(space, k, res.slots), Reference(res.cm, f), paddr)
  }

  /**
   The part of vm_fault after the region lookup found region k for the
   page-aligned address a. The side effects of the lookup (a frame
   allocated and bound, the frame's referenced flag) happen before the
   authorisation and stay even when the fault is then refused.
   */
  function RegionFault(kind: int, a: nat, space: AddrSpace, k: nat, cm: Coremap, tlb: seq<TlbEntry>): (r: FaultResult)
    requires CanFaultIn(a, space, k, cm, tlb) && a % PAGE_SIZE == 0
    ensures var regions := space.regions;
            var pageno := (a - regions[k].start) / PAGE_SIZE;
            var slot := regions[k].pages.value[pageno];
            && r.space.Some?
            && r.space.value == space.(regions := r.space.value.regions)
            && |r.space.value.regions| == |regions|
            && (forall j :: 0 <= j < |regions| && j != k ==> r.space.value.regions[j] == regions[j])
            && SameShape(regions[k], r.space.value.regions[k])
            && Ready(r.space.value.regions[k])
            && var slots' := r.space.value.regions[k].pages.value;
            && slots'[pageno].Some?
            && (forall j :: 0 <= j < |slots'| && j != pageno ==> slots'[j] == regions[k].pages.value[j])
            && var frame := slots'[pageno].value;
            && frame < |cm.frames|
            && (slot.Some? ==> frame == slot.value)
            && (slot.None? && HasFreeFrom(cm.frames, cm.firstFree) ==> IsFirstFree(cm.frames, cm.firstFree, frame))
            && (slot.None? && !HasFreeFrom(cm.frames, cm.firstFree) ==> frame == PageScanStop(cm.firstFree))
            && r.cm.firstFree == cm.firstFree
            && |r.cm.frames| == |cm.frames|
            && (forall j :: 0 <= j < |cm.frames| && j != frame ==> r.cm.frames[j] == cm.frames[j])
            && (slot.None? && HasFreeFrom(cm.frames, cm.firstFree) ==>
                  r.cm.frames[frame] == cm.frames[frame].(isAllocated := true, referenced := true))
            && (slot.Some? || !HasFreeFrom(cm.frames, cm.firstFree) ==> r.cm.frames[frame] == cm.frames[frame].(referenced := true))
            && r.status == (if frame == 0 then Failure(EFAULT) else Authorize(kind, regions[k].perm))
            && (r.status == Success ==> r.tlb == Install(tlb, MappingEntry(a, frame * PAGE_SIZE)))
            && (r.status != Success ==> r.tlb == tlb)
  {
    var b := BindPage(a, space, k, cm, tlb);
    if b.paddr == 0 then FaultResult(Some(b.space), b.cm, tlb, Failure(EFAULT))
    else
      var auth := Authorize(kind, space.regions[k].perm);
      if auth != Success then FaultResult(Some(b.space), b.cm, tlb, auth)
      else FaultResult(Some(b.space), b.cm, Install(tlb, MappingEntry(a, b.paddr)), Success)
  }

  /** What vm_fault needs of its inputs so that no access goes out of bounds. */
  predicate CanFault(faultaddress: nat, hasProc: bool, space: Option<AddrSpace>, cm: Coremap, tlb: seq<TlbEntry>) {
    && faultaddress < ADDR_LIMIT
    && |tlb| == NUM_TLB
    && FramesNumbered(cm.frames)
    && (hasProc && space.Some? ==>
          var a := PageBase(faultaddress);
          var k := FindRegion(space.value.regions, a, 0);
          k != -1 ==> CanFaultIn(a, space.value, k, cm, tlb))
  }

  /**
   vm_fault: page-align the address; without a current process or address
   space, or outside every region, the fault is refused with nothing
   changed; otherwise the first region containing the page handles it.
   */
  function VmFault(kind: int, faultaddress: nat, hasProc: bool, space: Option<AddrSpace>, cm: Coremap, tlb: seq<TlbEntry>): (r: FaultResult)
    requires CanFault(faultaddress, hasProc, space, cm, tlb)
    ensures !hasProc || space.None? ==> r == FaultResult(space, cm, tlb, Failure(EFAULT))
    ensures hasProc && space.Some? && FindRegion(space.value.regions, PageBase(faultaddress), 0) == -1 ==>
              r == FaultResult(space, cm, tlb, Failure(EFAULT))
    ensures hasProc && space.Some? && FindRegion(space.value.regions, PageBase(faultaddress), 0) != -1 ==>
              var a := PageBase(faultaddress);
              var k := FindRegion(space.value.regions, a, 0);
              && Contains(space.value.regions[k], a)
              && (forall j :: 0 <= j < k ==> !Contains(space.value.regions[j], a))
              && r == RegionFault(kind, a, space.value, k, cm, tlb)
  {
    var a := PageBase(faultaddress);
    if !hasProc || space.None? then FaultResult(space, cm, tlb, Failure(EFAULT))
    else
      var k := FindRegion(space.value.regions, a, 0);
      if k == -1 then FaultResult(space, cm, tlb, Failure(EFAULT))
      else RegionFault(kind, a, space.value, k, cm, tlb)
  }

  /**
   A read or write fault on an empty page of a region, with a free frame at
   or after a cursor above frame 0, succeeds: exactly that frame becomes allocated, the
   slot is bound to it, and the TLB then maps the faulting page to it.
   */
  lemma DemandFaultSucceeds(kind: int, faultaddress: nat, space: AddrSpace, cm: Coremap, tlb: seq<TlbEntry>)
    requires CanFault(faultaddress, true, Some(space), cm, tlb)
    requires kind == VM_FAULT_READ || kind == VM_FAULT_WRITE
    requires FindRegion(space.regions, PageBase(faultaddress), 0) != -1
    requires var a := PageBase(faultaddress);
             var reg := space.regions[FindRegion(space.regions, a, 0)];
             reg.pages.value[PageIndex(reg, a)].None?
    requires cm.firstFree > 0 && HasFreeFrom(cm.frames, cm.firstFree)
    ensures var r := VmFault(kind, faultaddress, true, Some(space), cm, tlb);
            var k := NextFree(cm.frames, cm.firstFree);
            && r.status == Success
            && !cm.frames[k].isAllocated && r.cm.frames[k].isAllocated
            && (forall j :: 0 <= j < |cm.frames| && j != k ==> r.cm.frames[j] == cm.frames[j])
            && exists s :: 0 <= s < |r.tlb| && r.tlb[s] == MappingEntry(PageBase(faultaddress), k * PAGE_SIZE)
  {
    var r := VmFault(kind, faultaddress, true, Some(space), cm, tlb);
    var a := PageBase(faultaddress);
    var k := NextFree(cm.frames, cm.firstFree);
    var reg := space.regions[FindRegion(space.regions, a, 0)];
    var frame := r.space.value.regions[FindRegion(space.regions, a, 0)].pages.value[PageIndex(reg, a)].value;
    assert IsFirstFree(cm.frames, cm.firstFree, frame);
    assert frame == k;
    InstallMapsPage(tlb, a, k * PAGE_SIZE);
    var e := MappingEntry(a, k * PAGE_SIZE);
    var sel := FirstInvalid(tlb, 0);
    if sel < |tlb| {
      assert r.tlb[sel] == e;
    } else {
      assert r.tlb[0] == e;
    }
  }

  /**
   On a table larger than the scan limit with no free frame below it, a read
   or write fault on an empty page still succeeds: the page is mapped to the
   frame where the allocator's scan stopped, which is never marked
   allocated and so may be handed out again.
   */
  lemma FaultWithoutFreeFrameMapsUnallocatedFrame(kind: int, faultaddress: nat, space: AddrSpace, cm: Coremap, tlb: seq<TlbEntry>)
    requires CanFault(faultaddress, true, Some(space), cm, tlb)
    requires kind == VM_FAULT_READ || kind == VM_FAULT_WRITE
    requires FindRegion(space.regions, PageBase(faultaddress), 0) != -1
    requires var a := PageBase(faultaddress);
             var reg := space.regions[FindRegion(space.regions, a, 0)];
             reg.pages.value[PageIndex(reg, a)].None?
    requires cm.firstFree >= 0 && !HasFreeFrom(cm.frames, cm.firstFree)
    ensures var r := VmFault(kind, faultaddress, true, Some(space), cm, tlb);
            var k := PageScanStop(cm.firstFree);
            && k < |cm.frames|
            && r.status == Success
            && r.cm.frames[k].isAllocated == cm.frames[k].isAllocated
            && exists s :: 0 <= s < |r.tlb| && r.tlb[s] == MappingEntry(PageBase(faultaddress), k * PAGE_SIZE)
  {
    var r := VmFault(kind, faultaddress, true, Some(space), cm, tlb);
    var a := PageBase(faultaddress);
    var k := PageScanStop(cm.firstFree);
    InstallMapsPage(tlb, a, k * PAGE_SIZE);
    var e := MappingEntry(a, k * PAGE_SIZE);
    var sel := FirstInvalid(tlb, 0);
    if sel < |tlb| {
      assert r.tlb[sel] == e;
    } else {
      assert r.tlb[0] == e;
    }
  }

  /** PADDR_TO_KVADDR, in a 32-bit word. */
  function PaddrToKvaddr(paddr: nat): (vaddr: nat)
    ensures vaddr < ADDR_LIMIT
    ensures paddr < MIPS_KSEG0 ==> vaddr == paddr + MIPS_KSEG0
  {
    Wrap32(paddr + MIPS_KSEG0)
  }

  /**
   free_kpages: the physical address handed to the frame table's release
   routine (which is not part of this model) is the kernel address minus
   MIPS_KSEG0, in a 32-bit word.
   */
  function FreeKPages(vaddr: nat): (paddr: nat)
    requires vaddr < ADDR_LIMIT
    ensures paddr < ADDR_LIMIT
    ensures vaddr >= MIPS_KSEG0 ==> paddr + MIPS_KSEG0 == vaddr
    ensures forall p :: 0 <= p < MIPS_KSEG0 && PaddrToKvaddr(p) == vaddr ==> p == paddr
  {
    Wrap32(vaddr - MIPS_KSEG0)
  }

  /** What alloc_kpages needs of the frame table for the allocator it picks. */
  predicate CanAllocKPages(cm: Coremap, npages: nat) {
    if npages > 1 then CanAllocNPages(cm, npages) else CanAllocPage(cm)
  }

  /**
   alloc_kpages: run allocation for more than one page, single-frame
   allocation otherwise; physical address 0 is reported as 0, any other as
   its direct-mapped kernel address.
   */
  function AllocKPages(cm: Coremap, npages: nat): (r: KAlloc)
    requires CanAllocKPages(cm, npages)
    ensures npages > 1 ==> r.cm == AllocNPages(cm, npages).cm && r.paddr == AllocNPages(cm, npages).paddr
    ensures npages <= 1 ==> r.cm == AllocPage(cm).cm && r.paddr == AllocPage(cm).paddr
    ensures r.vaddr < ADDR_LIMIT
    ensures r.paddr == 0 ==> r.vaddr == 0
    ensures r.paddr != 0 && r.paddr < MIPS_KSEG0 ==> r.vaddr != 0 && FreeKPages(r.vaddr) == r.paddr
  {
    var a := if npages > 1 then AllocNPages(cm, npages) else AllocPage(cm);
    if a.paddr == 0 then KAlloc(a.cm, a.paddr, 0)
    else KAlloc(a.cm, a.paddr, PaddrToKvaddr(a.paddr))
  }

  /**
   With frames numbered by physical address and a free frame at or after
   the cursor, alloc_kpages hands out the page-aligned, direct-mapped
   address of a frame that was free; a single page is marked allocated.
   */
  lemma AllocKPagesTakesFreeFrame(cm: Coremap, npages: nat)
    requires CanAllocKPages(cm, npages) && FramesNumbered(cm.frames) && HasFreeFrom(cm.frames, cm.firstFree)
    ensures var r := AllocKPages(cm, npages);
            && r.paddr % PAGE_SIZE == 0 && r.paddr < MIPS_KSEG0
            && !cm.frames[r.paddr / PAGE_SIZE].isAllocated
            && (npages <= 1 ==> r.cm.frames[r.paddr / PAGE_SIZE].isAllocated)
  {
  }
}
